=== FILE: README.md ===
# Meeting Summary AI extension — a Dafny model

This project models the core of a browser extension that records meetings, transcribes
them and summarises them. The extension runs in three contexts:

- **Background coordinator** (`background.js`). It routes messages and owns the recording-state
  record under `recordingState`. It keeps the meeting history under `meetings`, capped at 50
  entries and swept of entries older than 30 days. It writes the default settings once, and it
  classifies tab URLs into meeting platforms.
- **Popup** (`popup.js`). It captures microphone audio into time-sliced chunks and uploads the
  payload for transcription. It classifies failures into user-facing messages, asks for a
  summary, and saves `lastTranscript` and `lastSummary`.
- **Content script** (`content.js`). It detects the platform of the page and guards its own
  initialisation. It builds the meeting-info record from page probes, answers the tab's
  messages, and turns its record button into a start or stop request.

The model is written as pure functions over immutable data:

- JavaScript values are the `Js.Json` datatype. `undefined` is `Option.None`.
- A property read on `null` or `undefined` yields the TypeError message V8 throws. The enclosing
  `try`/`catch` then classifies that message, exactly as the code does.
- Storage (`chrome.storage.local`) is a `map<string, Json>`. Whether a storage call rejects is an
  input (`Js.Faults`).
- The clock (`Date.now()`, `toISOString()`) is an input.
- The remote transcription and chat calls are inputs, as a settled `fetch` (`Transcription.Fetch`).
- The browser's media answers are inputs (`Capture.Browser`).
- The page's DOM queries are inputs (`Content.Probes`).

Modules:

| module | file | models |
|---|---|---|
| `Wrappers` | wrappers.dfy | `Option`, `Result` |
| `Text` | text.dfy | `includes`, `toLowerCase`, `trim`, integer rendering |
| `Js` | js.dfy | JSON values, truthiness, property reads, `String(v)`, storage |
| `Envelope` | envelope.dfy | the coordinator's storage transition and reply envelope |
| `Platforms` | platforms.dfy | `detectMeetingPlatform`, the tab-update list |
| `RecordingState` | recording_state.dfy | `getRecordingState`, `startRecording`, `stopRecording` |
| `History` | history.dfy | `saveMeetingData`, `getMeetingHistory`, `clearOldData` |
| `Settings` | settings.dfy | `initializeSettings`, the popup's `saveSettings` and `loadSettings` |
| `Background` | background.dfy | the coordinator's `handleMessage` |
| `Capture` | capture.dfy | opening the popup, the capture session, `showStatus` and `updateUI` |
| `Transcription` | transcription.dfy | `processAudio`, `generateSummaryFromTranscript`, `generateSummary` |
| `Content` | content.dfy | the content script |
| `Coordination` | coordination.dfy | properties that span the three contexts |

## Behaviours worth knowing

Some of what the code does is easy to get wrong from a quick reading:

- **Start while recording.** `startRecording` has no check for a recording in progress. It
  overwrites the record and succeeds (`RecordingState.RestartOverwritesSession`).
- **Stop record.** `stopRecording` writes a record with only `isRecording` and `stopTime`. The
  session's `startTime` and `options` are gone (`RecordingState.StopRecording`).
- **Prune boundary.** `clearOldData` keeps only entries strictly newer than the cutoff, so an entry
  exactly 30 days old is removed (`History.ThirtyDayBoundary`).
- **Missing summary content.** There is no dedicated error for a malformed chat reply. A missing
  `choices[0].message.content` surfaces as the TypeError message behind `Error: `.
- **Stream release.** A start that fails after `getUserMedia` granted a stream never stops it
  (`Capture.FailedStartKeepsMicrophone`).
- **Failed start status.** The `catch` of `startRecording` shows the mapped error and then calls
  `updateUI`, which writes "Ready to record" over it. Only the troubleshooting panel keeps the
  error's effect (`Capture.InsecureStartShowsReady`).
- **401 with a `null` body.** `errorData.error` throws when the error body parses to `null`, so the
  TypeError is shown instead of the invalid-key text (`Transcription.NullBodyHidesUnauthorized`).
- **Popup flag.** The popup's `isRecording` flag is its own. It is never reconciled with the
  coordinator's record (`Capture.Popup`).

## Model

| member | source | states |
|---|---|---|
| Platforms.FirstMatchFrom | background.js:261-268 | the result is the platform of the first table entry whose substring occurs, and `unknown` iff none occurs |
| Platforms.DetectMeetingPlatform | background.js:256-269 | a missing tab, missing URL or empty URL is `unknown`; otherwise the lower-cased URL gets the first matching signature in the fixed order, and `unknown` iff none matches |
| Platforms.OnTabUpdated | background.js:100-145 | only a completed load of a tab with a non-empty URL acts; it injects and marks iff the URL contains one of the six meeting hosts (case-sensitive), else it clears the badge |
| Platforms.MeetingTabsAreClassified | background.js:102-113 | every URL the tab-update list treats as a meeting is classified as a known platform |
| Platforms.UpperCaseHostIsClassifiedButNotMarked | background.js:111-113 | the converse fails: `ZOOM.US` is classified as zoom but the case-sensitive list clears its badge |
| RecordingState.GetRecordingState | background.js:152-160 | the stored record when it is truthy and the read succeeds, else `{isRecording:false}`; the result is always truthy |
| RecordingState.StartRecording | background.js:162-181 | with a working write, the stored record is replaced by one holding exactly `isRecording: true`, `startTime = now` and `options` (default `{}`), and the answer is success; a failed write changes nothing and answers its message; no other key changes |
| RecordingState.StopRecording | background.js:183-200 | with a working write, the stored record has exactly `isRecording:false` and `stopTime = now`; a failed write changes nothing; no other key changes |
| RecordingState.RestartOverwritesSession | background.js:162-176 | a second start while recording succeeds and replaces the start time |
| RecordingState.StopIsIdempotent | background.js:183-195 | two stops both succeed, and the second leaves only its own stop time |
| RecordingState.StopForgetsSession | background.js:185-190 | the store after a stop does not depend on the previous recording record |
| RecordingState.LastCommandDecides | background.js:162-200 | after any fault-free sequence of starts and stops, a recording is active iff the last command was a start |
| Background.HandleMessage | background.js:53-98 | every message gets one envelope; a `null` message answers the TypeError; an unknown or non-string type answers `Unknown message type` and leaves storage alone; only start, stop and save change storage; the state query answers the stored state, start, stop and save are their operations, `PROCESS_AUDIO` answers `Audio processing initiated`, the history query answers the stored history and the platform query the sender tab's platform |
| Background.UnknownTypesAreRefused | background.js:91-92 | any string type outside the seven known ones is refused with the fixed error and storage is untouched |
| History.MeetingIdsAreDistinct | background.js:215-216 | saves at different times get different `meeting_<time>` ids |
| History.NewRecord | background.js:218-223 | the record holds `id`, `timestamp`, `date` and the spread fields, and a spread field overrides a generated one |
| History.PushCapped | background.js:229-235 | the new record is first, the old list follows in order, and the length is `min(old + 1, 50)` |
| History.StoredMeetings | background.js:226-227 | an absent or falsy list reads as `[]`, an array reads as its items, and any other truthy value makes the array method throw |
| History.SaveMeetingData | background.js:213-244 | with working storage and an array (or nothing) stored, the list becomes the capped push of the new record and the answer carries the generated id; any failure changes nothing and answers `{success:false, error}` with the read error, the `meetings.unshift is not a function` TypeError or the write error, in that order; no other key changes |
| History.NonArrayHistoryRefusesSaves | background.js:226-242 | a truthy stored history that is not an array makes every save answer `meetings.unshift is not a function` and leaves it as it is |
| History.GetMeetingHistory | background.js:246-254 | the stored truthy value, else `[]` (including on a failed read) |
| History.KeepNewer | background.js:290-292 | an entry is kept iff it is in the list and its timestamp is strictly after the cutoff |
| History.KeepNewerDistributes | background.js:290-292 | the filter keeps relative order: filtering a concatenation filters each part |
| History.KeepNewerIdempotent | background.js:290-292 | filtering twice with one cutoff equals filtering once |
| History.ClearOldData | background.js:284-298 | with working storage and a filterable list, the stored list becomes the entries newer than `now - 30 days` in order; otherwise storage is unchanged; no other key changes |
| History.ThirtyDayBoundary | background.js:286-292 | an entry exactly 30 days old is swept and one a millisecond younger is kept |
| History.ClearOldDataIdempotent | background.js:284-298 | sweeping twice at the same time equals sweeping once |
| History.HistoryKeepsNewestFifty | background.js:229-235 | after any sequence of saves, the history is the 50 most recent records, newest first, followed by older entries in order |
| Settings.InitializeSettings | background.js:34-51 | the defaults are written iff the stored settings are missing or falsy and both storage calls succeed; a present value is never replaced; no other key changes |
| Settings.InitializeSettingsIdempotent | background.js:44-47 | initialising again changes nothing |
| Settings.SavePopupSettings | popup.js:451-457 | the settings object is replaced by one holding exactly `autoSummarize` and `language`, with the values given; a failed write changes nothing |
| Settings.LoadSettings | popup.js:459-465 | truthy stored settings set the checkbox to the truthiness of `autoSummarize`; absent or falsy settings, or a failed read, leave the controls alone |
| Settings.SavedSettingsLoadBack | popup.js:451-465 | what the popup saves it loads back into the same control values |
| Settings.PopupSettingsSurviveInitialization | background.js:44-47 | after the popup saves, a later initialisation keeps the popup's object, so the dropped defaults stay dropped |
| Capture.Precheck | popup.js:30-56 | the insecure-context error comes first, then the unsupported-API error; a rejected `getUserMedia` passes its error on; a missing stream or one without audio tracks throws `No audio tracks available`; success iff the context is secure, the API exists and the stream has an audio track, and it yields that stream |
| Capture.FirstSupportedFrom | popup.js:69-75 | the first supported type at or after the position, and none iff no later type is supported |
| Capture.SelectMimeType | popup.js:61-79 | the most preferred supported type of the five, and none iff none is supported |
| Capture.StartErrorMessage | popup.js:121-137 | the five DOMException names map to their fixed texts; any other error shows its own message, or the generic text when that is empty |
| Capture.ShowStatus | popup.js:369-383 | the status is set, the troubleshooting panel is shown iff the kind is error and the lower-cased text mentions `microphone`, and nothing else changes |
| Capture.UpdateUI | popup.js:350-367 | the status line reads "Recording in progress..." when the flag is set and "Ready to record" otherwise; nothing else changes |
| Capture.LackingLetterHidesTroubleshooting | popup.js:376-382 | a message missing a letter of `microphone` in both cases never shows the panel |
| Capture.CapabilityCheck | popup.js:391-402 | a message is shown exactly when the capture API is missing or the context is insecure, and neither message shows the panel |
| Capture.Open | popup.js:391-418 | an opened popup is idle with an empty buffer; without the capture API or a secure context the line reads "Ready to record"; otherwise a denied permission shows its error with the panel, a granted one its success, any other state the prompt text, and no answer leaves "Ready to record" |
| Capture.StartAttempt | popup.js:28-108 | the steps fail in order (prechecks, format, construction, start) with the error each throws; a stream is granted iff the prechecks passed; only a failed `start` leaves a built recorder; success iff every step succeeds, with the negotiated type |
| Capture.Start | popup.js:28-143 | recording starts iff every step succeeds; it then has that format, an empty buffer, a pending auto-stop and the recording status with the panel hidden; any failure clears the flag, leaves "Ready to record" on the line and the panel as the mapped message decides; a failure after the grant leaks the stream |
| Capture.InsecureStartShowsReady | popup.js:121-143 | for an insecure context the panel comes up, but the line reads "Ready to record", not the mapped error |
| Capture.DataAvailable | popup.js:89-94 | a non-empty chunk is appended to the buffer, an empty one is dropped, and nothing else changes |
| Capture.Stop | popup.js:145-160 | acts only when a recorder exists and the flag is set; it clears the flag and the timer and keeps the buffer |
| Capture.AutoStop | popup.js:113-119 | the two-hour timer stops the recording only if it is still on |
| Capture.RecorderFailed | popup.js:103-106 | a recorder error is shown but leaves the flag and the buffer as they were |
| Capture.FlattenSize | popup.js:96-99 | the concatenated payload's size is the sum of the chunk sizes |
| Capture.OnStop | popup.js:96-101 | the payload exists iff a recorder was built; it has the negotiated type and the total chunk size |
| Capture.StopIdempotent | popup.js:145-160 | stopping twice equals stopping once, and a late auto-stop after a stop never restarts the recording |
| Capture.DeliverAppendsNonEmpty | popup.js:89-94 | delivering slices appends exactly the non-empty ones, in order |
| Capture.NonEmptyKeepsSize | popup.js:89-94 | dropping empty slices keeps the total size, and every kept slice is non-empty |
| Capture.SessionPayload | popup.js:87-101 | over a whole session, the payload is the non-empty slices in arrival order, sized as all slices together and typed with the negotiated format |
| Capture.EmptyPayloadMeansNoAudio | popup.js:90-100 | the payload is empty iff no non-empty slice arrived |
| Capture.PermissionErrorsShowTroubleshooting | popup.js:123-137 | every fixed permission, device and insecure-context text, and the generic text, brings up the troubleshooting panel |
| Capture.FailedStartKeepsMicrophone | popup.js:43-143 | a start that fails after the microphone was granted leaves the stream running |
| Transcription.ClassifyProcessingError | popup.js:225-236 | `401` wins, then `429`, then `insufficient_quota`; otherwise the message is shown behind `Error: ` |
| Transcription.PlainMessagesPassThrough | popup.js:225-236 | a message with no `4` and no `_` is shown as it is, behind `Error: ` |
| Transcription.NoSpeechIsShownAsItIs | popup.js:206-208 | the no-speech message is shown as it is, behind `Error: ` |
| Transcription.Form | popup.js:178-189 | the form holds the file, `whisper-1` and `json`, and a `language` field iff the language is not `auto`, carrying that language |
| Transcription.TranscriptText | popup.js:203-209 | success iff the body's `text` is a string with a non-space character, and it is that string; a missing, falsy or blank text is "no speech" |
| Transcription.TranscriptFrom | popup.js:189-206 | a transcript comes only from an ok response with a readable body, and it is that body's text; a rejected fetch throws its reason; a response that is not ok throws `Transcription failed: <status> <statusText>. <detail>`, or the TypeError of reading the detail |
| Transcription.TranscriptIsTheResponseText | popup.js:203-209 | an ok response whose body's `text` is non-blank yields exactly that text |
| Transcription.Prompt | popup.js:256-268 | the prompt holds the transcript verbatim, at a fixed offset, between the fixed head and tail |
| Transcription.SummaryContent | popup.js:292-293 | a summary exists only when `choices[0].message.content` is a string, and it is that string |
| Transcription.SummaryFrom | popup.js:288-293 | a non-ok response fails with its status text before the body is read; a summary comes only from an ok response |
| Transcription.SummaryIsTheReplyContent | popup.js:291-293 | an ok chat response yields exactly the content of its first choice's message |
| Transcription.SummarizeTranscript | popup.js:246-303 | storage changes only when every step succeeds, and then only `lastSummary` (the chat content) and its time; the request's prompt embeds the transcript |
| Transcription.UploadGate | popup.js:164-173 | the upload goes out iff the key read succeeds, the key is truthy and the payload is non-empty; a missing key shows its own message; an absent or empty payload is the no-audio error |
| Transcription.AfterUpload | popup.js:191-236 | a failed transcription saves nothing and shows the classified error; storage changes only when a non-blank transcript was obtained and saved |
| Transcription.WithTranscript | popup.js:211-220 | the transcript is saved unless the write fails; a chat request goes out only with auto-summarize on; only pipeline keys change |
| Transcription.ProcessAudio | popup.js:162-237 | nothing is uploaded and nothing is saved unless the gate passes; only the four pipeline keys can change |
| Transcription.GenerateSummary | popup.js:239-244 | a summary run happens iff the read succeeds and a truthy transcript is stored, and it summarises that transcript |
| Transcription.BlankTranscriptIsNotSaved | popup.js:206-208 | an ok response with a blank `text` saves nothing and shows the no-speech error |
| Transcription.UnauthorizedIsReported | popup.js:197-228 | a 401 response is reported as an invalid key, whatever its status text and whatever error body that is not `null` comes back, and nothing is saved |
| Transcription.FailedTranscriptionIsClassified | popup.js:197-235 | a response that is not ok with a readable error body ends the run on the classified `Transcription failed` message, with nothing saved and no summary requested |
| Transcription.RateLimitMessage | popup.js:197-231 | a 429 failure message with no `401` in it is classified as the rate limit |
| Transcription.RateLimitIsReported | popup.js:197-235 | a 429 response whose message carries no `401` is reported as the rate limit, and nothing is saved |
| Transcription.QuotaIsReported | popup.js:197-235 | a failed response whose error detail names `insufficient_quota`, with neither `401` nor `429` in its message, is reported as missing credits, and nothing is saved |
| Transcription.NullBodyHidesUnauthorized | popup.js:197-235 | a 401 whose error body is `null` is shown as the TypeError behind `Error: `, not as an invalid key, and nothing is saved |
| Transcription.TranscriptReachesSummary | popup.js:211-217 | when every step succeeds, the saved transcript is the response text, the saved summary is the chat content, and the prompt contains the transcript |
| Transcription.FailedSummaryKeepsTranscript | popup.js:211-301 | a summary that fails after the transcript was saved, on the second key read or the chat call, keeps the transcript, adds no summary and shows that error behind `Error: ` |
| Content.DetectPlatform | content.js:21-41 | an empty URL is `unknown`, and a known platform's signature from the coordinator's table occurs in the lower-cased URL |
| Content.DetectionAgrees | content.js:21-38 | for every URL, the empty one included, the page classifies exactly as the coordinator does |
| Content.Init | content.js:11-19 | the first call detects the platform and runs the setup once; every later call changes nothing |
| Content.Construct | content.js:5-9 | a new script is injected, has run its setup once and holds the detected platform |
| Content.InitIsIdempotent | content.js:11-13 | calling `init` again changes nothing |
| Content.SetupRunsOnce | content.js:11-13 | however often `init` is called after construction, the setup has run exactly once |
| Content.OnMutation | content.js:422-430 | a mutation remembers the current URL and re-detects only when the URL changed |
| Content.MutationsKeepPlatformInStep | content.js:424-430 | after any sequence of mutations, the platform is the one the last seen URL yields |
| Content.IsMeetingActive | content.js:239-250 | Meet, Zoom and Teams use their marker; every other platform is active iff a media element exists |
| Content.DigitRun | content.js:289 | the length of the longest leading digit run in the radix |
| Content.ParseIntPrefix | content.js:289 | `NaN` for blank text and for text that opens with neither a sign nor a digit; a negative result needs a leading `-` |
| Content.UnsignedRead | content.js:289 | text that opens with neither white space nor a sign is read as its unsigned part |
| Content.SignedPrefix | content.js:289 | a leading `-` negates the unsigned part and a leading `+` keeps it |
| Content.CounterTextParses | content.js:288-289 | `parseInt` of a decimal number followed by non-digit text is that number |
| Content.ParticipantCount | content.js:283-295 | Meet and Teams count elements; Zoom's counter is read with `parseInt`, and is 0 when absent; everything else is 0 |
| Content.MeetingInfo | content.js:252-281 | the record always holds platform, URL, time and activity; it holds `title` iff the platform has a title selector and the element was found; it holds `participantCount` iff the count is a number above 0; it holds no other keys |
| Content.HandleTabMessage | content.js:408-420 | exactly one response for every non-null message: meeting info, a plain success, or `Unknown message type` |
| Content.MeetingInfoReplyMatchesCoordinator | content.js:408-411 | a freshly injected script answers `GET_MEETING_INFO` with the page's URL and the platform the coordinator assigns to a tab at that URL |
| Content.StartMessage | content.js:310-313 | the start request carries `options.meetingInfo` |
| Content.Toggle | content.js:297-305 | stop iff the reply has truthy `success` and truthy `data.isRecording`, otherwise start with the current meeting info; a reply whose reads throw sends nothing |
| Content.ReplyNotice | content.js:315-339 | success is shown iff the reply's `success` is truthy; an error iff the send rejects or the reply is nullish |
| Coordination.ToggleFollowsStoredState | content.js:297-305 | the page's button always decides, and it decides to stop iff the coordinator can read a stored active recording |
| Coordination.StartCarriesMeetingInfo | content.js:307-313 | a start from the page stores the computed meeting info as `options.meetingInfo` and the coordinator then reports a recording |
| Coordination.ToggleFlipsRecording | content.js:297-305 | with working storage, one press of the page's button flips whether a recording is active |
| Coordination.PipelineLeavesCoordinatorKeys | popup.js:430-449 | the popup's pipeline never alters the recording record, the meeting history or the settings |

## Left out

- User interface: DOM rendering, badges, notifications, the floating button, the banner, the
  buttons' enabled state, `formatSummary`'s HTML and `exportSummary` are not modelled. Of the
  popup's page the model keeps the status line, the troubleshooting panel, the auto-summarize
  checkbox and the language selector (`Settings.Controls`), and the transcript and summary
  sections (`Transcription.Display`). The popup's HTML is not part of this model: the panel is
  taken to start hidden.
- `saveApiKey` is not modelled: the stored `apiKey`, which `Transcription.UploadGate` and
  `Transcription.SummarizeTranscript` read, is taken as part of the given `Store`, and the input
  handler that writes it is left out. `handleIconClick` and `notifyMeetingDetected` are not
  modelled either: they only read storage and write to the console. Of `loadSettings` only the settings part is modelled; the
  API key field is display only.
- `Settings.LoadSettings`: the language selector's option list is HTML. Assigning a value that no
  option carries leaves the selector reading `""` in the browser. The model keeps the rendered value.
- `Capture.Open`: `checkMicrophonePermissions` runs inside `init`, and its answer is taken to
  arrive after `init` has finished.
- `Capture.FailedStartKeepsMicrophone`: a granted stream without audio tracks holds no microphone
  and is not counted as leaked.
- Concurrency is not modelled: each operation is one atomic step. Interleavings of
  asynchronous handlers are out of scope, as are the daily `setInterval`, which builds a new
  coordinator, and its re-registered listeners.
- Timers are not modelled as time. The two-hour auto-stop is a pending flag that `Capture.AutoStop`
  fires. The 3-second status reset is not modelled.
- Numbers are integers. JavaScript doubles, `NaN` other than `parseInt`'s, and floating-point
  timestamps are not modelled.
- `Text.ToLower` lowers only ASCII letters; JavaScript's `toLowerCase` is Unicode-wide.
- `History.SpreadFields`: spreading a string or an array adds its indexed characters or elements
  in JavaScript; the model adds no fields for anything but a plain object.
- `History.IsNewer`: the comparison is modelled for numbers, booleans and `null`; a string or
  array timestamp, which JavaScript coerces to a number, counts as not newer.
- `Js.Member`: arrays and primitives have no own properties in the model (no `length`, no
  prototype members), which is all the program reads.
- `Transcription.Authorization` renders a non-string key with `String(v)`, which does not reproduce
  how `fetch` normalises header values.
- `Transcription.SummaryContent` models only the TypeError `formatSummary` raises for a
  non-string; its text transformation is display-only.
- The chat request's `temperature` (0.3) and the `Content-Type` header are not part of
  `Transcription.ChatRequest`.
- The transcript and summary timestamps use the one `nowIso` of the run.
- `Content.Probes`: the CSS selector queries and `textContent` are inputs. Each platform's
  selectors are represented by the one set of probe answers for the current page.
- `Content.ParticipantCount`: counters whose `parseInt` value exceeds double precision are read
  exactly.
- The `content.js` stylesheet injection and the `DOMContentLoaded` deferral are not modelled:
  construction happens once either way.

=== FILE: background.dfy ===
/** The coordinator's message router (background.js `handleMessage`): every request is
    answered with exactly one `{ success, data | error }` envelope. */
module Background {
  import opened Wrappers
  import opened Js
  import opened Platforms
  import opened Envelope
  import RecordingState
  import History

  const GetRecordingStateType := "GET_RECORDING_STATE"
  const StartRecordingType := "START_RECORDING"
  const StopRecordingType := "STOP_RECORDING"
  const ProcessAudioType := "PROCESS_AUDIO"
  const SaveMeetingDataType := "SAVE_MEETING_DATA"
  const GetMeetingHistoryType := "GET_MEETING_HISTORY"
  const DetectMeetingPlatformType := "DETECT_MEETING_PLATFORM"

  /** The closed set of request types the coordinator serves. */
  const KnownTypes: set<string> := {
    GetRecordingStateType, StartRecordingType, StopRecordingType, ProcessAudioType,
    SaveMeetingDataType, GetMeetingHistoryType, DetectMeetingPlatformType
  }

  const UnknownTypeResponse := Failed("Unknown message type")

  /** The clock and storage behaviour one request sees. */
  datatype Env = Env(now: int, nowIso: string, faults: Faults)

  /** `message.type` as the `switch` sees it: a string, or nothing any case matches. */
  function TypeOf(message: Json): Option<string>
  {
    match Member(message, "type")
    case Some(JStr(t)) => Some(t)
    case _ => None
  }

  /** `handleMessage(message, sender, sendResponse)`. A `null` message makes the read of
      `message.type` throw, which the handler's `catch` turns into a failure envelope. */
  function HandleMessage(store: Store, message: Json, senderTab: Option<Tab>, env: Env)
    : (r: Transition)
    ensures IsEnvelope(r.response)
    ensures message == JNull ==>
      r.store == store && r.response == Failed(ReadError("null", "type"))
    ensures message != JNull && (TypeOf(message).None? || TypeOf(message).value !in KnownTypes) ==>
      r.store == store && r.response == UnknownTypeResponse
    ensures r.store != store ==>
      message != JNull && TypeOf(message).Some?
      && TypeOf(message).value in {StartRecordingType, StopRecordingType, SaveMeetingDataType}
    ensures message != JNull && TypeOf(message) == Some(GetRecordingStateType) ==>
      r.response == JObj(map["success" := JBool(true),
                              "data" := RecordingState.GetRecordingState(store, env.faults.readError)])
    ensures message != JNull && TypeOf(message) == Some(StartRecordingType) ==>
      r == RecordingState.StartRecording(store, env.now, Member(message, "options"), env.faults.writeError)
    ensures message != JNull && TypeOf(message) == Some(StopRecordingType) ==>
      r == RecordingState.StopRecording(store, env.now, env.faults.writeError)
    ensures message != JNull && TypeOf(message) == Some(SaveMeetingDataType) ==>
      r == History.SaveMeetingData(store, env.now, env.nowIso, Member(message, "data"), env.faults)
    ensures message != JNull && TypeOf(message) == Some(ProcessAudioType) ==>
      r.store == store && r.response == Succeeded("Audio processing initiated")
    ensures message != JNull && TypeOf(message) == Some(GetMeetingHistoryType) ==>
      r.store == store
      && r.response == JObj(map["success" := JBool(true), "data" := History.GetMeetingHistory(store, env.faults.readError)])
    ensures message != JNull && TypeOf(message) == Some(DetectMeetingPlatformType) ==>
      r.response == JObj(map["success" := JBool(true), "platform" := JStr(Id(DetectMeetingPlatform(senderTab)))])
  {
    if message == JNull then Transition(store, Failed(ReadError("null", "type")))
    else match TypeOf(message)
      case None => Transition(store, UnknownTypeResponse)
      case Some(t) =>
        if t == GetRecordingStateType then
          Transition(store, JObj(map["success" := JBool(true),
                                 "data" := RecordingState.GetRecordingState(store, env.faults.readError)]))
        else if t == StartRecordingType then
          RecordingState.StartRecording(store, env.now, Member(message, "options"), env.faults.writeError)
        else if t == StopRecordingType then
          RecordingState.StopRecording(store, env.now, env.faults.writeError)
        else if t == ProcessAudioType then
          Transition(store, Succeeded("Audio processing initiated"))
        else if t == SaveMeetingDataType then
          History.SaveMeetingData(store, env.now, env.nowIso, Member(message, "data"), env.faults)
        else if t == GetMeetingHistoryType then
          Transition(store, JObj(map["success" := JBool(true),
                                 "data" := History.GetMeetingHistory(store, env.faults.readError)]))
        else if t == DetectMeetingPlatformType then
          Transition(store, JObj(map["success" := JBool(true), "platform" := JStr(Id(DetectMeetingPlatform(senderTab)))]))
        else Transition(store, UnknownTypeResponse)
  }

  /** A request whose `type` is not a string, or is a string outside the closed set, is
      refused with the fixed error and never touches storage. */
  lemma UnknownTypesAreRefused(store: Store, t: string, rest: map<string, Json>, senderTab: Option<Tab>, env: Env)
    requires t !in KnownTypes
    ensures var r := HandleMessage(store, JObj(rest["type" := JStr(t)]), senderTab, env);
      r.store == store && r.response == JObj(map["success" := JBool(false), "error" := JStr("Unknown message type")])
  {
  }
}

=== FILE: capture.dfy ===
/** The popup's capture session (popup.js `startRecording`, `stopRecording`, the
    recorder's `ondataavailable`/`onstop` handlers and `showStatus`). The popup keeps its
    own `isRecording` flag; it never consults the coordinator's recording state. */
module Capture {
  import opened Wrappers
  import opened Text

  newtype byte = x: int | 0 <= x < 256

  /** One time slice delivered by the recorder (`event.data`). */
  type Chunk = seq<byte>

  /** `new Blob(chunks, { type })`. */
  datatype Blob = Blob(bytes: seq<byte>, mimeType: string)

  /** An exception as the catch block sees it: `error.name` and `error.message`. */
  datatype JsError = JsError(name: string, message: string)

  /** `new Error(message)`. */
  function Thrown(message: string): JsError
  {
    JsError("Error", message)
  }

  /** A granted microphone stream, described by how many audio tracks it has. */
  datatype Stream = Stream(audioTracks: nat)

  /** How `getUserMedia` settles: rejected with a DOMException, or resolved with a stream
      (which may be missing). */
  datatype MediaAnswer = Rejected(error: JsError) | Granted(stream: Option<Stream>)

  /** How `navigator.permissions.query({ name: 'microphone' })` settles, when the
      permissions API exists at all. */
  datatype PermissionQuery = NoPermissionsApi | QueryRejected | Answered(state: string)

  /** What the browser answers while the popup opens and during a start attempt.
      `supportedTypes` is `MediaRecorder.isTypeSupported`; `constructError` is an exception
      from `new MediaRecorder`, `startError` one from `mediaRecorder.start`. */
  datatype Browser = Browser(
    secureContext: bool,
    hasMediaDevices: bool,
    hasGetUserMedia: bool,
    permission: PermissionQuery,
    userMedia: MediaAnswer,
    supportedTypes: set<string>,
    constructError: Option<JsError>,
    startError: Option<JsError>)

  const InsecureMessage := "Microphone" + " access requires HTTPS or localhost"
  const UnsupportedMessage := "Media devices not supported in this browser"
  const NoTracksMessage := "No audio tracks available"
  const NoFormatMessage := "No supported audio format found"

  /** The outcome of the checks before a recorder is built: a stream, or the error thrown. */
  datatype Checked = Passed(stream: Stream) | Threw(error: JsError)

  /** The checks before a recorder is built, in source order: secure context, capture API,
      then a granted stream with at least one audio track. A rejected `getUserMedia` is
      passed on as it is. */
  function Precheck(b: Browser): (r: Checked)
    ensures r.Passed? <==>
      && b.secureContext && b.hasMediaDevices && b.hasGetUserMedia
      && b.userMedia.Granted? && b.userMedia.stream.Some? && b.userMedia.stream.value.audioTracks > 0
    ensures r.Passed? ==> Granted(Some(r.stream)) == b.userMedia && r.stream.audioTracks > 0
    ensures !b.secureContext ==> r == Threw(Thrown(InsecureMessage))
    ensures b.secureContext && !(b.hasMediaDevices && b.hasGetUserMedia) ==> r == Threw(Thrown(UnsupportedMessage))
    ensures b.secureContext && b.hasMediaDevices && b.hasGetUserMedia && b.userMedia.Rejected? ==>
      r == Threw(b.userMedia.error)
    ensures r.Threw? && b.secureContext && b.hasMediaDevices && b.hasGetUserMedia && b.userMedia.Granted? ==>
      r == Threw(Thrown(NoTracksMessage))
  {
    if !b.secureContext then Threw(Thrown(InsecureMessage))
    else if !b.hasMediaDevices || !b.hasGetUserMedia then Threw(Thrown(UnsupportedMessage))
    else match b.userMedia
      case Rejected(e) => Threw(e)
      case Granted(stream) =>
        if stream.None? || stream.value.audioTracks == 0 then Threw(Thrown(NoTracksMessage))
        else Passed(stream.value)
  }

  /** The recorder formats in order of preference. */
  const MimePreferences: seq<string> :=
    ["audio/webm;codecs=opus", "audio/webm", "audio/ogg;codecs=opus", "audio/mp4", "audio/wav"]

  /** The first preferred format at or after `k` that the browser supports. */
  function FirstSupportedFrom(supported: set<string>, k: nat): (r: Option<string>)
    requires k <= |MimePreferences|
    ensures r.None? <==> forall j :: k <= j < |MimePreferences| ==> MimePreferences[j] !in supported
    ensures r.Some? ==>
      exists j :: k <= j < |MimePreferences| && MimePreferences[j] == r.value && r.value in supported
        && forall i :: k <= i < j ==> MimePreferences[i] !in supported
    decreases |MimePreferences| - k
  {
    if k == |MimePreferences| then None
    else if MimePreferences[k] in supported then Some(MimePreferences[k])
    else FirstSupportedFrom(supported, k + 1)
  }

  /** The MIME negotiation loop: the most preferred supported type, if any. */
  function SelectMimeType(supported: set<string>): (r: Option<string>)
    ensures r.None? <==> forall j :: 0 <= j < |MimePreferences| ==> MimePreferences[j] !in supported
    ensures r.Some? ==>
      exists j :: 0 <= j < |MimePreferences| && MimePreferences[j] == r.value && r.value in supported
        && forall i :: 0 <= i < j ==> MimePreferences[i] !in supported
  {
    FirstSupportedFrom(supported, 0)
  }

  /** The fixed user-facing texts of a failed start, each written as the word the
      troubleshooting rule looks for joined to the rest of the sentence. */
  const DeniedText := "Microphone" + " access denied. Please allow microphone permissions and try again."
  const NotFoundText := "No " + "microphone" + " found. Please connect a microphone and try again."
  const BusyText := "Microphone" + " is being used by another application."
  const ConstraintsText := "Microphone" + " constraints not supported."
  const BlockedText := "Microphone" + " access blocked due to security policy."
  const GenericText := "Could not access " + "microphone"

  /** The user-facing text for a failed start: five DOMException names have fixed texts,
      anything else shows its own message or, when that is empty, a generic one. */
  function StartErrorMessage(e: JsError): (r: string)
    ensures e.name == "NotAllowedError" ==>
      r == DeniedText
    ensures e.name == "NotFoundError" ==>
      r == NotFoundText
    ensures e.name == "NotReadableError" ==> r == BusyText
    ensures e.name == "OverconstrainedError" ==> r == ConstraintsText
    ensures e.name == "SecurityError" ==> r == BlockedText
    ensures e.name !in {"NotAllowedError", "NotFoundError", "NotReadableError", "OverconstrainedError", "SecurityError"} ==>
      r == if e.message != "" then e.message else GenericText
  {
    if e.name == "NotAllowedError" then DeniedText
    else if e.name == "NotFoundError" then NotFoundText
    else if e.name == "NotReadableError" then BusyText
    else if e.name == "OverconstrainedError" then ConstraintsText
    else if e.name == "SecurityError" then BlockedText
    else if e.message != "" then e.message
    else GenericText
  }

  /** The `type` argument of `showStatus`. */
  datatype StatusKind = Idle | Processing | Recording | Succeeded | Failed

  datatype Status = Status(message: string, kind: StatusKind)

  /** The line `updateUI` writes for an idle popup, and for a recording one. */
  const ReadyStatus := Status("Ready to record", Idle)
  const RecordingStatus := Status("Recording in progress...", Recording)

  /** `showStatus`: the troubleshooting panel is shown for an error whose text mentions
      the microphone, in any letter case, and hidden otherwise. */
  predicate ShowsTroubleshooting(s: Status)
  {
    s.kind == Failed && Contains(ToLower(s.message), "microphone")
  }

  /** The popup's capture state. `recorderType` is the MIME type of the current
      `mediaRecorder`, if one was ever built; `leakedStreams` counts microphone streams
      acquired by a start that then failed, which the code never stops. */
  datatype Popup = Popup(
    isRecording: bool,
    recorderType: Option<string>,
    chunks: seq<Chunk>,
    autoStopPending: bool,
    status: Status,
    troubleshooting: bool,
    leakedStreams: nat)

  function ShowStatus(p: Popup, message: string, kind: StatusKind): (r: Popup)
    ensures r.status == Status(message, kind)
    ensures r.troubleshooting == ShowsTroubleshooting(r.status)
    ensures r.(status := p.status, troubleshooting := p.troubleshooting) == p
  {
    var s := Status(message, kind);
    p.(status := s, troubleshooting := ShowsTroubleshooting(s))
  }

  /** `updateUI()`: the status line follows the popup's own flag; the troubleshooting
      panel is left as it is. */
  function UpdateUI(p: Popup): (r: Popup)
    ensures r.isRecording ==> r.status == RecordingStatus
    ensures !r.isRecording ==> r.status == ReadyStatus
    ensures r.(status := p.status) == p
  {
    p.(status := if p.isRecording then RecordingStatus else ReadyStatus)
  }

  const PermissionDeniedText := "Microphone" + " access denied"
  const PermissionGrantedText := "Microphone access granted"
  const PermissionPromptText := "Ready to record (will request microphone access)"

  /** A message missing some letter of "microphone", in both cases, never brings up the
      troubleshooting panel. */
  lemma LackingLetterHidesTroubleshooting(message: string, c: char, kind: StatusKind)
    requires c in "microphone" && c !in message && (c as int - 32) as char !in message
    ensures !ShowsTroubleshooting(Status(message, kind))
  {
    assert 'a' <= c <= 'z';
    LoweredLacks(message, c);
    ContainedCharsOccur(ToLower(message), "microphone", c);
  }

  /** The checks `checkMicrophonePermissions` makes before its first `await`: the message
      it shows when the API is missing or the context is insecure. Neither message
      brings up the troubleshooting panel. */
  function CapabilityCheck(b: Browser): (r: Option<string>)
    ensures r.None? <==> b.secureContext && b.hasMediaDevices && b.hasGetUserMedia
    ensures r.Some? ==> !ShowsTroubleshooting(Status(r.value, Failed))
  {
    if !b.hasMediaDevices || !b.hasGetUserMedia then
      LackingLetterHidesTroubleshooting("Media devices not supported", 'h', Failed);
      Some("Media devices not supported")
    else if !b.secureContext then
      LackingLetterHidesTroubleshooting("Requires HTTPS connection", 'm', Failed);
      Some("Requires HTTPS connection")
    else None
  }

  /** Opening the popup: the constructor, then `init`. `bindEvents` starts
      `checkMicrophonePermissions`, whose checks before its first `await` show their
      status before `init`'s `updateUI` resets the line; the permission answer arrives
      after that reset. The panel starts hidden. */
  function Open(b: Browser): (r: Popup)
    ensures !r.isRecording && r.recorderType.None? && r.chunks == [] && !r.autoStopPending && r.leakedStreams == 0
    ensures !(b.secureContext && b.hasMediaDevices && b.hasGetUserMedia) || !b.permission.Answered? ==>
      r.status == ReadyStatus && !r.troubleshooting
    ensures b.secureContext && b.hasMediaDevices && b.hasGetUserMedia && b.permission == Answered("denied") ==>
      r.status == Status(PermissionDeniedText, Failed) && r.troubleshooting
    ensures b.secureContext && b.hasMediaDevices && b.hasGetUserMedia && b.permission == Answered("granted") ==>
      r.status == Status(PermissionGrantedText, Succeeded) && !r.troubleshooting
    ensures (b.secureContext && b.hasMediaDevices && b.hasGetUserMedia && b.permission.Answered?
             && b.permission.state !in {"denied", "granted"}) ==>
      r.status == Status(PermissionPromptText, Idle) && !r.troubleshooting
  {
    var initial := Popup(false, None, [], false, ReadyStatus, false, 0);
    match CapabilityCheck(b)
    case Some(message) => UpdateUI(ShowStatus(initial, message, Failed))
    case None =>
      var ready := UpdateUI(initial);
      match b.permission
      case Answered(state) =>
        if state == "denied" then
          MentionsMicrophoneFirst("Microphone", " access denied");
          ShowStatus(ready, PermissionDeniedText, Failed)
        else if state == "granted" then ShowStatus(ready, PermissionGrantedText, Succeeded)
        else ShowStatus(ready, PermissionPromptText, Idle)
      case _ => ready
  }

  /** How a start attempt ends: a running recorder of the negotiated type, or the error
      its `catch` receives, with whether a stream had been granted and, when
      `mediaRecorder.start` threw, the type of the recorder already built. */
  datatype Attempt = Started(mime: string) | Aborted(error: JsError, streamGranted: bool, builtType: Option<string>)

  /** The steps of `startRecording` in order: the prechecks, the format negotiation,
      constructing the recorder, then starting it. */
  function StartAttempt(b: Browser): (r: Attempt)
    ensures r.Started? <==>
      Precheck(b).Passed? && SelectMimeType(b.supportedTypes).Some? && b.constructError.None? && b.startError.None?
    ensures r.Started? ==> SelectMimeType(b.supportedTypes) == Some(r.mime)
    ensures Precheck(b).Threw? ==> r == Aborted(Precheck(b).error, false, None)
    ensures Precheck(b).Passed? && SelectMimeType(b.supportedTypes).None? ==>
      r == Aborted(Thrown(NoFormatMessage), true, None)
    ensures Precheck(b).Passed? && SelectMimeType(b.supportedTypes).Some? && b.constructError.Some? ==>
      r == Aborted(b.constructError.value, true, None)
    ensures Precheck(b).Passed? && SelectMimeType(b.supportedTypes).Some? && b.constructError.None? && b.startError.Some? ==>
      r == Aborted(b.startError.value, true, SelectMimeType(b.supportedTypes))
  {
    match Precheck(b)
    case Threw(e) => Aborted(e, false, None)
    case Passed(_) =>
      match SelectMimeType(b.supportedTypes)
      case None => Aborted(Thrown(NoFormatMessage), true, None)
      case Some(mime) =>
        if b.constructError.Some? then Aborted(b.constructError.value, true, None)
        else if b.startError.Some? then Aborted(b.startError.value, true, Some(mime))
        else Started(mime)
  }

  /** `startRecording()`. On success a recorder of the negotiated type is running, the
      chunk buffer is empty, the flag is set and the two-hour auto-stop is pending. On
      failure the `catch` shows the mapped error, clears the flag and calls `updateUI`,
      which puts "Ready to record" back on the status line: only the troubleshooting
      panel keeps the error's effect. A recorder whose `start` threw stays built, with
      the buffer already reset. */
  function Start(p: Popup, b: Browser): (r: Popup)
    ensures r.isRecording <==> StartAttempt(b).Started?
    ensures r.isRecording ==>
      && r.recorderType == Some(StartAttempt(b).mime)
      && r.chunks == []
      && r.autoStopPending
      && r.status == RecordingStatus
      && !r.troubleshooting
      && r.leakedStreams == p.leakedStreams
    ensures !r.isRecording ==>
      && r.status == ReadyStatus
      && r.troubleshooting == ShowsTroubleshooting(Status(StartErrorMessage(StartAttempt(b).error), Failed))
      && r.autoStopPending == p.autoStopPending
      && r.leakedStreams == (if StartAttempt(b).streamGranted then p.leakedStreams + 1 else p.leakedStreams)
    ensures !r.isRecording && StartAttempt(b).builtType.None? ==> r.chunks == p.chunks && r.recorderType == p.recorderType
    ensures !r.isRecording && StartAttempt(b).builtType.Some? ==> r.chunks == [] && r.recorderType == StartAttempt(b).builtType
  {
    match StartAttempt(b)
    case Aborted(e, granted, built) =>
      var q := if built.Some? then p.(recorderType := built, chunks := []) else p;
      UpdateUI(ShowStatus(q, StartErrorMessage(e), Failed).(
        isRecording := false,
        leakedStreams := if granted then p.leakedStreams + 1 else p.leakedStreams))
    case Started(mime) =>
      ShowStatus(
        UpdateUI(p.(isRecording := true, recorderType := Some(mime), chunks := [], autoStopPending := true)),
        "Recording in progress...", Recording)
  }

  /** As written, the mapped error of a failed start never stays on the status line: for
      an insecure context the panel comes up, but the line reads "Ready to record". */
  lemma InsecureStartShowsReady(p: Popup, b: Browser)
    requires !b.secureContext
    ensures Start(p, b).status == ReadyStatus && Start(p, b).status.message != InsecureMessage
    ensures Start(p, b).troubleshooting
  {
    MentionsMicrophoneFirst("Microphone", " access requires HTTPS or localhost");
    assert |InsecureMessage| != |ReadyStatus.message|;
  }

  /** `ondataavailable`: a non-empty chunk is appended; an empty one is ignored. Without a
      recorder there is no handler. */
  function DataAvailable(p: Popup, chunk: Chunk): (r: Popup)
    ensures r.chunks == if p.recorderType.Some? && |chunk| > 0 then p.chunks + [chunk] else p.chunks
    ensures r.(chunks := p.chunks) == p
  {
    if p.recorderType.Some? && |chunk| > 0 then p.(chunks := p.chunks + [chunk]) else p
  }

  /** `stopRecording()`: acts only when a recorder exists and the flag is set; it then
      clears the flag and the pending auto-stop. */
  function Stop(p: Popup): (r: Popup)
    ensures !(p.recorderType.Some? && p.isRecording) ==> r == p
    ensures p.recorderType.Some? && p.isRecording ==>
      && !r.isRecording && !r.autoStopPending
      && r.status == Status("Processing audio...", Processing)
      && r.chunks == p.chunks && r.recorderType == p.recorderType
  {
    if p.recorderType.Some? && p.isRecording then
      ShowStatus(p.(isRecording := false, autoStopPending := false), "Processing audio...", Processing)
    else p
  }

  /** The two-hour timer firing: it stops the recording only if it is still active. */
  function AutoStop(p: Popup): (r: Popup)
    ensures !p.autoStopPending ==> r == p
    ensures p.autoStopPending && !p.isRecording ==> r == p.(autoStopPending := false)
    ensures p.autoStopPending && p.isRecording ==> r == Stop(p)
  {
    if !p.autoStopPending then p
    else if p.isRecording then Stop(p)
    else p.(autoStopPending := false)
  }

  /** The recorder's `onerror`: the error is shown, but the flag, the buffer and the
      pending auto-stop are left as they were. */
  function RecorderFailed(p: Popup, message: string): (r: Popup)
    ensures r.status == Status("Recording error: " + message, Failed)
    ensures r.isRecording == p.isRecording && r.chunks == p.chunks && r.autoStopPending == p.autoStopPending
    ensures r.troubleshooting <==> Contains(ToLower("Recording error: " + message), "microphone")
  {
    ShowStatus(p, "Recording error: " + message, Failed)
  }

  /** Concatenation of chunks in arrival order. */
  function Flatten(chunks: seq<Chunk>): seq<byte>
    decreases |chunks|
  {
    if |chunks| == 0 then [] else chunks[0] + Flatten(chunks[1..])
  }

  function TotalSize(chunks: seq<Chunk>): nat
    decreases |chunks|
  {
    if |chunks| == 0 then 0 else |chunks[0]| + TotalSize(chunks[1..])
  }

  lemma {:induction false} FlattenSize(chunks: seq<Chunk>)
    ensures |Flatten(chunks)| == TotalSize(chunks)
    decreases |chunks|
  {
    if |chunks| > 0 {
      FlattenSize(chunks[1..]);
    }
  }

  /** `onstop`: the payload is the buffered chunks concatenated, typed with the negotiated
      format; its size is the sum of the chunk sizes. */
  function OnStop(p: Popup): (r: Option<Blob>)
    ensures r.Some? <==> p.recorderType.Some?
    ensures r.Some? ==> r.value.mimeType == p.recorderType.value && |r.value.bytes| == TotalSize(p.chunks)
  {
    FlattenSize(p.chunks);
    if p.recorderType.Some? then Some(Blob(Flatten(p.chunks), p.recorderType.value)) else None
  }

  /** Stopping is idempotent, and a late auto-stop after a stop does nothing but retire
      the timer. */
  lemma StopIdempotent(p: Popup)
    ensures Stop(Stop(p)) == Stop(p)
    ensures p.recorderType.Some? ==> !AutoStop(Stop(p)).isRecording
  {
  }

  /** Delivering a sequence of slices to the handler. */
  function Deliver(p: Popup, slices: seq<Chunk>): Popup
    decreases |slices|
  {
    if |slices| == 0 then p else Deliver(DataAvailable(p, slices[0]), slices[1..])
  }

  /** The slices the handler keeps: the non-empty ones, in order. */
  function NonEmpty(slices: seq<Chunk>): seq<Chunk>
    decreases |slices|
  {
    if |slices| == 0 then []
    else if |slices[0]| > 0 then [slices[0]] + NonEmpty(slices[1..])
    else NonEmpty(slices[1..])
  }

  lemma {:induction false} DeliverAppendsNonEmpty(p: Popup, slices: seq<Chunk>)
    requires p.recorderType.Some?
    ensures Deliver(p, slices).chunks == p.chunks + NonEmpty(slices)
    ensures Deliver(p, slices).(chunks := p.chunks) == p
    decreases |slices|
  {
    if |slices| > 0 {
      DeliverAppendsNonEmpty(DataAvailable(p, slices[0]), slices[1..]);
    }
  }

  lemma {:induction false} NonEmptyKeepsSize(slices: seq<Chunk>)
    ensures TotalSize(NonEmpty(slices)) == TotalSize(slices)
    ensures forall c :: c in NonEmpty(slices) ==> |c| > 0
    decreases |slices|
  {
    if |slices| > 0 {
      NonEmptyKeepsSize(slices[1..]);
      if |slices[0]| > 0 {
        assert ([slices[0]] + NonEmpty(slices[1..]))[1..] == NonEmpty(slices[1..]);
      }
    }
  }

  /** One session end to end: after a successful start, whatever slices arrive (before or
      after the stop), the payload holds exactly the non-empty slices in arrival order, its
      size is the total size of all slices, and its type is the negotiated one. */
  lemma {:induction false} SessionPayload(p: Popup, b: Browser, before: seq<Chunk>, after: seq<Chunk>)
    requires Start(p, b).isRecording
    ensures var q := Deliver(Stop(Deliver(Start(p, b), before)), after);
      var blob := OnStop(q);
      && blob.Some?
      && blob.value.bytes == Flatten(NonEmpty(before + after))
      && |blob.value.bytes| == TotalSize(before + after)
      && Some(blob.value.mimeType) == SelectMimeType(b.supportedTypes)
  {
    var s := Start(p, b);
    DeliverAppendsNonEmpty(s, before);
    var d1 := Deliver(s, before);
    assert d1.chunks == NonEmpty(before) by { assert [] + NonEmpty(before) == NonEmpty(before); }
    var d2 := Stop(d1);
    assert d2.chunks == NonEmpty(before) && d2.recorderType == s.recorderType;
    DeliverAppendsNonEmpty(d2, after);
    NonEmptyConcat(before, after);
    NonEmptyKeepsSize(before + after);
    FlattenSize(NonEmpty(before + after));
  }

  lemma {:induction false} NonEmptyConcat(a: seq<Chunk>, b: seq<Chunk>)
    ensures NonEmpty(a + b) == NonEmpty(a) + NonEmpty(b)
    decreases |a|
  {
    if |a| == 0 {
      assert a + b == b;
    } else {
      assert (a + b)[1..] == a[1..] + b;
      NonEmptyConcat(a[1..], b);
    }
  }

  /** The payload is empty exactly when no non-empty slice arrived. */
  lemma EmptyPayloadMeansNoAudio(slices: seq<Chunk>)
    ensures TotalSize(slices) == 0 <==> NonEmpty(slices) == []
  {
    NonEmptyKeepsSize(slices);
    if NonEmpty(slices) != [] {
      NonEmptyPositive(NonEmpty(slices));
    }
  }

  lemma {:induction false} NonEmptyPositive(cs: seq<Chunk>)
    requires |cs| > 0 && forall c :: c in cs ==> |c| > 0
    ensures TotalSize(cs) > 0
  {
    assert cs[0] in cs;
  }

  /** Every fixed text of the five named DOMExceptions, the insecure-context text and the
      generic fallback bring up the troubleshooting panel. */
  lemma PermissionErrorsShowTroubleshooting(e: JsError)
    requires e.name in {"NotAllowedError", "NotFoundError", "NotReadableError", "OverconstrainedError", "SecurityError"}
    ensures ShowsTroubleshooting(Status(StartErrorMessage(e), Failed))
    ensures ShowsTroubleshooting(Status(StartErrorMessage(Thrown(InsecureMessage)), Failed))
    ensures ShowsTroubleshooting(Status(StartErrorMessage(Thrown("")), Failed))
  {
    var mic := "Microphone";
    MentionsMicrophoneFirst(mic, " access denied. Please allow microphone permissions and try again.");
    MentionsMicrophone("No ", "microphone", " found. Please connect a microphone and try again.");
    MentionsMicrophoneFirst(mic, " is being used by another application.");
    MentionsMicrophoneFirst(mic, " constraints not supported.");
    MentionsMicrophoneFirst(mic, " access blocked due to security policy.");
    MentionsMicrophoneFirst(mic, " access requires HTTPS or localhost");
    MentionsMicrophoneLast("Could not access ", "microphone");
  }

  lemma MentionsMicrophone(a: string, w: string, b: string)
    requires w == "Microphone" || w == "microphone"
    ensures ShowsTroubleshooting(Status(a + w + b, Failed))
  {
    assert ToLower(w) == "microphone";
    ContainsLoweredInfix(a, w, b, "microphone");
  }

  lemma MentionsMicrophoneFirst(w: string, b: string)
    requires w == "Microphone" || w == "microphone"
    ensures ShowsTroubleshooting(Status(w + b, Failed))
  {
    MentionsMicrophone("", w, b);
    assert "" + w + b == w + b;
  }

  lemma MentionsMicrophoneLast(a: string, w: string)
    requires w == "Microphone" || w == "microphone"
    ensures ShowsTroubleshooting(Status(a + w, Failed))
  {
    MentionsMicrophone(a, w, "");
    assert a + w + "" == a + w;
  }

  /** As written, a start that fails after the microphone was granted (no supported
      format, or a recorder that cannot be built or started) does not stop the stream. */
  lemma FailedStartKeepsMicrophone(p: Popup, b: Browser)
    requires Precheck(b).Passed? && !Start(p, b).isRecording
    ensures Start(p, b).leakedStreams == p.leakedStreams + 1
  {
  }
}

=== FILE: content.dfy ===
/** The per-tab content script (content.js `MeetingContentScript`): platform detection,
    the `init` guard, URL-change re-detection, the meeting-info record built from page
    probes, the tab-side message router, and the record-button toggle. The DOM is an
    input: every selector query is a field of `Probes`. */
module Content {
  import opened Wrappers
  import opened Text
  import opened Js
  import opened Platforms

  /** `detectPlatform()`: the lower-cased `location.href` against six substrings, in order. */
  function DetectPlatform(href: string): (r: Platform)
    ensures href == "" ==> r == Unknown
    ensures r != Unknown ==>
      exists j :: 0 <= j < |Signatures| && Signatures[j].1 == r && Contains(ToLower(href), Signatures[j].0)
  {
    var url := ToLower(href);
    assert Signatures[0] == ("meet.google.com", GoogleMeet) && Signatures[1] == ("zoom.us", Zoom);
    assert Signatures[2] == ("teams.microsoft.com", MicrosoftTeams) && Signatures[3] == ("webex.com", Webex);
    assert Signatures[4] == ("whereby.com", Whereby) && Signatures[5] == ("jitsi", Jitsi);
    if Contains(url, "meet.google.com") then GoogleMeet
    else if Contains(url, "zoom.us") then Zoom
    else if Contains(url, "teams.microsoft.com") then MicrosoftTeams
    else if Contains(url, "webex.com") then Webex
    else if Contains(url, "whereby.com") then Whereby
    else if Contains(url, "jitsi") then Jitsi
    else Unknown
  }

  /** The page and the background coordinator classify every URL alike, the empty one
      included, so a tab's platform does not depend on who asks. */
  lemma DetectionAgrees(href: string)
    ensures DetectPlatform(href) == DetectMeetingPlatform(Some(Tab(Some(href))))
  {
    var url := ToLower(href);
    assert Signatures[0].0 == "meet.google.com" && Signatures[1].0 == "zoom.us";
    assert Signatures[2].0 == "teams.microsoft.com" && Signatures[3].0 == "webex.com";
    assert Signatures[4].0 == "whereby.com" && Signatures[5].0 == "jitsi";
    if href != "" {
      assert FirstMatchFrom(url, Signatures, 6) == Unknown;
    }
  }

  /** The script instance: its detected platform (`null` until `init` runs), the
      `isInjected` guard, and how many times `init` has run its body. */
  datatype ContentScript = ContentScript(platform: Option<Platform>, injected: bool, setups: nat)

  /** `init()`: the first call detects the platform and sets up the UI, listeners and
      observers; every later call returns at once. */
  function Init(cs: ContentScript, href: string): (r: ContentScript)
    ensures r.injected
    ensures cs.injected ==> r == cs
    ensures !cs.injected ==> r.setups == cs.setups + 1 && r.platform == Some(DetectPlatform(href))
  {
    if cs.injected then cs
    else ContentScript(Some(DetectPlatform(href)), true, cs.setups + 1)
  }

  /** `new MeetingContentScript()`: the constructor's fields, then `init`. */
  function Construct(href: string): (r: ContentScript)
    ensures r.injected && r.setups == 1 && r.platform == Some(DetectPlatform(href))
  {
    Init(ContentScript(None, false, 0), href)
  }

  /** Calling `init` again changes nothing. */
  lemma InitIsIdempotent(cs: ContentScript, a: string, b: string)
    ensures Init(Init(cs, a), b) == Init(cs, a)
  {
  }

  /** Repeated `init` calls at the URLs in `hrefs`. */
  function InitAll(cs: ContentScript, hrefs: seq<string>): ContentScript
    decreases |hrefs|
  {
    if |hrefs| == 0 then cs else InitAll(Init(cs, hrefs[0]), hrefs[1..])
  }

  /** However often `init` is called after construction, its body has run exactly once and
      the platform is the one detected at construction. */
  lemma {:induction false} SetupRunsOnce(href: string, hrefs: seq<string>)
    ensures InitAll(Construct(href), hrefs) == Construct(href)
    decreases |hrefs|
  {
    if |hrefs| > 0 {
      assert Init(Construct(href), hrefs[0]) == Construct(href);
      SetupRunsOnce(href, hrefs[1..]);
    }
  }

  /** The URL observer of `observeMeetingChanges`: the URL last seen and the platform. */
  datatype UrlWatch = UrlWatch(currentUrl: string, platform: Platform)

  /** One DOM mutation: when `location.href` differs from the URL last seen, it is
      remembered and the platform is detected again. */
  function OnMutation(w: UrlWatch, href: string): (r: UrlWatch)
    ensures r.currentUrl == href
    ensures href == w.currentUrl ==> r == w
  {
    if href != w.currentUrl then UrlWatch(href, DetectPlatform(href)) else w
  }

  /** A watch is in step when its platform is the one its URL yields. */
  predicate InStep(w: UrlWatch)
  {
    w.platform == DetectPlatform(w.currentUrl)
  }

  /** Mutations keep the platform in step with the page's current URL. */
  lemma {:induction false} MutationsKeepPlatformInStep(w: UrlWatch, hrefs: seq<string>)
    requires InStep(w)
    ensures InStep(Observe(w, hrefs))
    ensures |hrefs| > 0 ==> Observe(w, hrefs).platform == DetectPlatform(hrefs[|hrefs| - 1])
    decreases |hrefs|
  {
    if |hrefs| > 0 {
      var w1 := OnMutation(w, hrefs[0]);
      assert InStep(w1);
      MutationsKeepPlatformInStep(w1, hrefs[1..]);
      if |hrefs| == 1 {
        assert Observe(w, hrefs) == w1;
      } else {
        assert hrefs[1..][|hrefs[1..]| - 1] == hrefs[|hrefs| - 1];
      }
    }
  }

  /** The watch after a sequence of mutations, each seeing the URL at that moment. */
  function Observe(w: UrlWatch, hrefs: seq<string>): UrlWatch
    decreases |hrefs|
  {
    if |hrefs| == 0 then w else Observe(OnMutation(w, hrefs[0]), hrefs[1..])
  }

  /** What the page's selector queries return for the current platform's selectors:
      whether its "meeting active" marker is present, how many `video`/`audio` elements
      there are, the title element's text when one is found, how many participant
      elements there are, and the text of Zoom's participant counter when present. */
  datatype Probes = Probes(
    activeMarker: bool,
    mediaElements: nat,
    titleText: Option<string>,
    participantElements: nat,
    participantsText: Option<string>)

  /** `isMeetingActive()`: the platform's marker for Meet, Zoom and Teams; any media
      element for every other platform. */
  function IsMeetingActive(platform: Platform, probes: Probes): (r: bool)
    ensures platform in {GoogleMeet, Zoom, MicrosoftTeams} ==> (r <==> probes.activeMarker)
    ensures platform !in {GoogleMeet, Zoom, MicrosoftTeams} ==> (r <==> probes.mediaElements > 0)
  {
    match platform
    case GoogleMeet => probes.activeMarker
    case Zoom => probes.activeMarker
    case MicrosoftTeams => probes.activeMarker
    case _ => probes.mediaElements > 0
  }

  /** A digit of `parseInt` in base 10 or 16, or -1. */
  function DigitIn(c: char, radix: nat): (d: int)
    requires radix == 10 || radix == 16
    ensures -1 <= d < radix
    ensures '0' <= c <= '9' ==> d == c as int - '0' as int
    ensures radix == 10 ==> (d >= 0 <==> '0' <= c <= '9')
  {
    if '0' <= c <= '9' then c as int - '0' as int
    else if radix == 16 && 'a' <= c <= 'f' then c as int - 'a' as int + 10
    else if radix == 16 && 'A' <= c <= 'F' then c as int - 'A' as int + 10
    else -1
  }

  /** The length of the leading run of digits of `s`. */
  function DigitRun(s: string, radix: nat): (n: nat)
    requires radix == 10 || radix == 16
    ensures n <= |s|
    ensures forall i :: 0 <= i < n ==> DigitIn(s[i], radix) >= 0
    ensures n < |s| ==> DigitIn(s[n], radix) < 0
    decreases |s|
  {
    if |s| == 0 || DigitIn(s[0], radix) < 0 then 0 else 1 + DigitRun(s[1..], radix)
  }

  /** The value of a run of digits, most significant first. */
  function RunValue(s: string, radix: nat): nat
    requires radix == 10 || radix == 16
    requires forall i :: 0 <= i < |s| ==> DigitIn(s[i], radix) >= 0
    decreases |s|
  {
    if |s| == 0 then 0
    else radix * RunValue(s[..|s| - 1], radix) + DigitIn(s[|s| - 1], radix) as nat
  }

  /** `s` without its leading white space. */
  function TrimStart(s: string): (r: string)
    ensures |r| <= |s| && r == s[|s| - |r|..]
    ensures |r| > 0 ==> !IsJsSpace(r[0])
    decreases |s|
  {
    if |s| > 0 && IsJsSpace(s[0]) then TrimStart(s[1..]) else s
  }

  /** `parseInt` after the sign: a `0x` prefix selects base 16, then the longest run of
      digits is read; `None` when the run is empty. */
  function UnsignedPrefix(u: string): (r: Option<nat>)
    ensures |u| > 0 && !('0' <= u[0] <= '9') ==> r.None?
    ensures u == "" ==> r.None?
  {
    var hex := |u| >= 2 && u[0] == '0' && (u[1] == 'x' || u[1] == 'X');
    var radix := if hex then 16 else 10;
    var v := if hex then u[2..] else u;
    var n := DigitRun(v, radix);
    if n == 0 then None else Some(RunValue(v[..n], radix))
  }

  /** `parseInt(s)` with no radix: leading white space, an optional sign, then the
      unsigned part; `None` is `NaN`. */
  function ParseIntPrefix(s: string): (r: Option<int>)
    ensures TrimStart(s) == "" ==> r.None?
    ensures var t := TrimStart(s); |t| > 0 && t[0] != '-' && t[0] != '+' && !('0' <= t[0] <= '9') ==> r.None?
    ensures r.Some? && r.value < 0 ==> TrimStart(s)[0] == '-'
  {
    var t := TrimStart(s);
    var signed := |t| > 0 && (t[0] == '-' || t[0] == '+');
    match UnsignedPrefix(if signed then t[1..] else t)
    case None => None
    case Some(magnitude) => Some(if signed && t[0] == '-' then 0 - magnitude else magnitude)
  }

  /** Text that opens with neither white space nor a sign is read as its unsigned part. */
  lemma UnsignedRead(s: string)
    requires |s| > 0 && !IsJsSpace(s[0]) && s[0] != '-' && s[0] != '+'
    ensures var m := UnsignedPrefix(s);
      ParseIntPrefix(s) == if m.None? then None else Some(m.value as int)
  {
    assert TrimStart(s) == s;
  }

  /** A string that opens with a sign is read as the sign applied to the rest. */
  lemma SignedPrefix(t: string, u: string)
    requires |t| > 0 && (t[0] == '-' || t[0] == '+') && t[1..] == u
    ensures var m := UnsignedPrefix(u);
      ParseIntPrefix(t) == if m.None? then None else Some(if t[0] == '-' then 0 - m.value else m.value)
  {
    assert !IsJsSpace(t[0]);
    assert TrimStart(t) == t;
  }

  lemma {:induction false} RunValueIsParseNat(s: string)
    requires IsDigits(s)
    ensures forall i :: 0 <= i < |s| ==> DigitIn(s[i], 10) >= 0
    ensures RunValue(s, 10) == ParseNat(s)
    decreases |s|
  {
    if |s| > 0 {
      var p := s[..|s| - 1];
      assert IsDigits(p) by {
        forall i | 0 <= i < |p| ensures '0' <= p[i] <= '9' { assert p[i] == s[i]; }
      }
      RunValueIsParseNat(p);
    }
  }

  /** A counter that reads as a decimal number followed by non-digit text parses to that
      number, as `parseInt` stops at the first character that is not a digit. */
  lemma CounterTextParses(n: nat, tail: string)
    requires |tail| == 0 || !('0' <= tail[0] <= '9')
    requires n == 0 ==> |tail| == 0 || (tail[0] != 'x' && tail[0] != 'X')
    ensures ParseIntPrefix(NatToString(n) + tail) == Some(n)
  {
    var d := NatToString(n);
    var s := d + tail;
    forall i | 0 <= i < |d| ensures '0' <= s[i] <= '9' { assert s[i] == d[i]; }
    assert |d| < |s| ==> s[|d|] == tail[0];
    assert |s| >= 2 && s[0] == '0' ==> |d| == 1 && s[1] == tail[0];
    DecimalPrefixParses(s, |d|);
    assert s[..|d|] == d;
    RunValueIsParseNat(d);
    ParseNatToString(n);
  }

  /** A string that starts with a run of `n` decimal digits, and not with `0x`, parses to
      the value of that run. */
  lemma DecimalPrefixParses(s: string, n: nat)
    requires 0 < n <= |s|
    requires forall i :: 0 <= i < n ==> '0' <= s[i] <= '9'
    requires n < |s| ==> !('0' <= s[n] <= '9')
    requires !(|s| >= 2 && s[0] == '0' && (s[1] == 'x' || s[1] == 'X'))
    ensures forall i :: 0 <= i < n ==> DigitIn(s[i], 10) >= 0
    ensures ParseIntPrefix(s) == Some(RunValue(s[..n], 10) as int)
  {
    assert !IsJsSpace(s[0]);
    assert TrimStart(s) == s;
    DigitRunIs(s, n);
  }

  lemma {:induction false} DigitRunIs(s: string, n: nat)
    requires n <= |s|
    requires forall i :: 0 <= i < n ==> DigitIn(s[i], 10) >= 0
    requires n < |s| ==> DigitIn(s[n], 10) < 0
    ensures DigitRun(s, 10) == n
    decreases n
  {
    if n > 0 {
      DigitRunIs(s[1..], n - 1);
    }
  }

  /** `getParticipantCount()`: element counts for Meet and Teams, Zoom's counter read with
      `parseInt` (`None` is `NaN`), and 0 elsewhere. */
  function ParticipantCount(platform: Platform, probes: Probes): (r: Option<int>)
    ensures platform in {GoogleMeet, MicrosoftTeams} ==> r == Some(probes.participantElements)
    ensures platform == Zoom && probes.participantsText.None? ==> r == Some(0)
    ensures platform == Zoom && probes.participantsText.Some? ==> r == ParseIntPrefix(probes.participantsText.value)
    ensures platform !in {GoogleMeet, MicrosoftTeams, Zoom} ==> r == Some(0)
  {
    match platform
    case GoogleMeet => Some(probes.participantElements)
    case MicrosoftTeams => Some(probes.participantElements)
    case Zoom => if probes.participantsText.Some? then ParseIntPrefix(probes.participantsText.value) else Some(0)
    case _ => Some(0)
  }

  /** Whether a platform has a title selector at all. */
  predicate HasTitleSelector(p: Platform)
  {
    p in {GoogleMeet, Zoom, MicrosoftTeams}
  }

  /** The page as the script sees it when it answers. */
  datatype Page = Page(href: string, nowIso: string, probes: Probes)

  /** `getCurrentMeetingInfo()`: platform, URL, time and activity always; a title only
      for the platforms with a title selector whose element was found; a participant
      count only when it is a positive number. */
  function MeetingInfo(platform: Platform, page: Page): (r: Json)
    ensures r.JObj?
    ensures Member(r, "platform") == Some(JStr(Id(platform)))
    ensures Member(r, "url") == Some(JStr(page.href))
    ensures Member(r, "timestamp") == Some(JStr(page.nowIso))
    ensures Member(r, "isActive") == Some(JBool(IsMeetingActive(platform, page.probes)))
    ensures "title" in r.fields <==> HasTitleSelector(platform) && page.probes.titleText.Some?
    ensures "title" in r.fields ==> r.fields["title"] == JStr(page.probes.titleText.value)
    ensures var count := ParticipantCount(platform, page.probes);
      && ("participantCount" in r.fields <==> count.Some? && count.value > 0)
      && ("participantCount" in r.fields ==> r.fields["participantCount"] == JNum(count.value))
    ensures r.fields.Keys <= {"platform", "url", "timestamp", "isActive", "title", "participantCount"}
  {
    var base := map["platform" := JStr(Id(platform)), "url" := JStr(page.href),
                    "timestamp" := JStr(page.nowIso), "isActive" := JBool(IsMeetingActive(platform, page.probes))];
    var titled := if HasTitleSelector(platform) && page.probes.titleText.Some?
      then base["title" := JStr(page.probes.titleText.value)] else base;
    var count := ParticipantCount(platform, page.probes);
    JObj(if count.Some? && count.value > 0 then titled["participantCount" := JNum(count.value)] else titled)
  }

  const GetMeetingInfoType := "GET_MEETING_INFO"
  const InjectRecordingUiType := "INJECT_RECORDING_UI"

  /** `handleMessage(message, sender, sendResponse)` in the page: exactly one response
      for every message it can read, and none for `null`, whose `type` read throws. */
  function HandleTabMessage(platform: Platform, message: Json, page: Page): (r: Option<Json>)
    ensures r.Some? <==> message != JNull
    ensures message != JNull && Member(message, "type") == Some(JStr(GetMeetingInfoType)) ==>
      r == Some(JObj(map["success" := JBool(true), "data" := MeetingInfo(platform, page)]))
    ensures message != JNull && Member(message, "type") == Some(JStr(InjectRecordingUiType)) ==>
      r == Some(JObj(map["success" := JBool(true)]))
    ensures message != JNull && Member(message, "type") !in {Some(JStr(GetMeetingInfoType)), Some(JStr(InjectRecordingUiType))} ==>
      r == Some(JObj(map["success" := JBool(false), "error" := JStr("Unknown message type")]))
  {
    if message == JNull then None
    else
      var t := Member(message, "type");
      if t == Some(JStr(GetMeetingInfoType)) then
        Some(JObj(map["success" := JBool(true), "data" := MeetingInfo(platform, page)]))
      else if t == Some(JStr(InjectRecordingUiType)) then
        Some(JObj(map["success" := JBool(true)]))
      else Some(JObj(map["success" := JBool(false), "error" := JStr("Unknown message type")]))
  }

  /** Asked for meeting info, a freshly injected script answers with a record of the page's
      URL and of the platform the coordinator assigns to a tab at that URL. */
  lemma MeetingInfoReplyMatchesCoordinator(page: Page)
    ensures var cs := Construct(page.href);
      var reply := HandleTabMessage(cs.platform.value, JObj(map["type" := JStr(GetMeetingInfoType)]), page);
      var info := MeetingInfo(DetectPlatform(page.href), page);
      && reply.Some? && Member(reply.value, "success") == Some(JBool(true))
      && Member(reply.value, "data") == Some(info)
      && Member(info, "platform") == Some(JStr(Id(DetectMeetingPlatform(Some(Tab(Some(page.href)))))))
      && Member(info, "url") == Some(JStr(page.href))
  {
    DetectionAgrees(page.href);
  }

  /** The two requests the page sends the coordinator. */
  datatype Request = SendStart(message: Json) | SendStop

  /** `{ type: 'START_RECORDING', options: { meetingInfo } }`. */
  function StartMessage(info: Json): (r: Json)
    ensures Member(r, "type") == Some(JStr("START_RECORDING"))
    ensures Member(r, "options") == Some(JObj(map["meetingInfo" := info]))
  {
    JObj(map["type" := JStr("START_RECORDING"), "options" := JObj(map["meetingInfo" := info])])
  }

  const StopMessage := JObj(map["type" := JStr("STOP_RECORDING")])
  const StateQuery := JObj(map["type" := JStr("GET_RECORDING_STATE")])

  /** `toggleRecording()`: given the reply to the state query (`None` for `undefined`),
      stop when it says `success` and `data.isRecording`, otherwise start with the meeting
      info of the moment. A reply whose reads throw sends nothing. */
  function Toggle(reply: Option<Json>, info: Json): (r: Result<Request>)
    ensures r.Failure? <==>
      reply.None? || reply == Some(JNull)
      || (Defined(Member(reply.value, "success"))
          && (Member(reply.value, "data").None? || Member(reply.value, "data") == Some(JNull)))
    ensures r == Success(SendStop) <==>
      reply.Some? && reply.value != JNull && Defined(Member(reply.value, "success"))
      && Member(reply.value, "data").Some? && Defined(Member(Member(reply.value, "data").value, "isRecording"))
    ensures r.Success? && r.value.SendStart? ==> r.value.message == StartMessage(info)
  {
    var success :- GetProp(reply, "success");
    if !Defined(success) then Success(SendStart(StartMessage(info)))
    else
      var isRecording :- GetProp(Member(reply.value, "data"), "isRecording");
      if Defined(isRecording) then Success(SendStop) else Success(SendStart(StartMessage(info)))
  }

  /** The notice `startRecording` and `stopRecording` show for the coordinator's reply:
      success, refusal, or a thrown error (a rejected send or an unreadable reply). */
  datatype Notice = Done | Refused | Errored

  function ReplyNotice(reply: Result<Option<Json>>): (r: Notice)
    ensures r == Done <==> reply.Success? && Defined(ReplyField(reply.value, "success"))
    ensures r == Errored <==> reply.Failure? || reply.value.None? || reply.value == Some(JNull)
  {
    if reply.Failure? then Errored
    else match GetProp(reply.value, "success")
      case Failure(_) => Errored
      case Success(s) => if Defined(s) then Done else Refused
  }

  /** The own property of a possibly-undefined reply. */
  function ReplyField(v: Option<Json>, key: string): Option<Json>
  {
    if v.Some? then Member(v.value, key) else None
  }
}

=== FILE: coordination.dfy ===
/** How the three contexts meet: the page's record button talks to the coordinator's
    router, and the popup's pipeline shares the coordinator's storage area. */
module Coordination {
  import opened Wrappers
  import opened Js
  import opened Platforms
  import RecordingState
  import Envelope
  import History
  import Settings
  import Background
  import Content
  import Transcription
  import Capture

  /** The request the page sends for a toggle decision, as a coordinator message. */
  function RequestMessage(req: Content.Request): Json
  {
    match req
    case SendStart(m) => m
    case SendStop => Content.StopMessage
  }

  /** The page's state query, answered by the coordinator, always yields a decision, and
      the decision is to stop exactly when the stored record says a recording is active
      and could be read. */
  lemma ToggleFollowsStoredState(store: Store, tab: Option<Tab>, env: Background.Env, info: Json)
    ensures var reply := Background.HandleMessage(store, Content.StateQuery, tab, env).response;
      var decision := Content.Toggle(Some(reply), info);
      && decision.Success?
      && (decision.value == Content.SendStop <==> env.faults.readError.None? && RecordingState.IsRecording(store))
      && (decision.value.SendStart? ==> decision.value.message == Content.StartMessage(info))
  {
    var state := RecordingState.GetRecordingState(store, env.faults.readError);
    assert Background.TypeOf(Content.StateQuery) == Some(Background.GetRecordingStateType);
    var reply := Background.HandleMessage(store, Content.StateQuery, tab, env).response;
    assert reply == JObj(map["success" := JBool(true), "data" := state]);
    assert Member(reply, "data") == Some(state);
  }

  /** A start requested from the page stores the meeting info the page computed as the
      session's `options.meetingInfo`, and the coordinator then reports a recording. */
  lemma StartCarriesMeetingInfo(store: Store, platform: Platform, page: Content.Page, tab: Option<Tab>, env: Background.Env)
    requires env.faults.writeError.None?
    ensures var info := Content.MeetingInfo(platform, page);
      var r := Background.HandleMessage(store, Content.StartMessage(info), tab, env);
      && RecordingState.StateKey in r.store
      && RecordingState.IsRecording(r.store)
      && Member(r.store[RecordingState.StateKey], "options") == Some(JObj(map["meetingInfo" := info]))
      && r.response == Envelope.Succeeded("Recording started")
  {
    var info := Content.MeetingInfo(platform, page);
    assert Background.TypeOf(Content.StartMessage(info)) == Some(Background.StartRecordingType);
  }

  /** With storage that never fails, one press of the page's button flips whether the
      coordinator reports a recording. */
  lemma ToggleFlipsRecording(store: Store, tab: Option<Tab>, env: Background.Env, info: Json)
    requires env.faults == NoFaults
    ensures var reply := Background.HandleMessage(store, Content.StateQuery, tab, env).response;
      var decision := Content.Toggle(Some(reply), info);
      decision.Success? &&
      var after := Background.HandleMessage(store, RequestMessage(decision.value), tab, env).store;
      RecordingState.IsRecording(after) == !RecordingState.IsRecording(store)
  {
    ToggleFollowsStoredState(store, tab, env, info);
    var reply := Background.HandleMessage(store, Content.StateQuery, tab, env).response;
    var decision := Content.Toggle(Some(reply), info);
    match decision.value
    case SendStop =>
      assert Background.TypeOf(Content.StopMessage) == Some(Background.StopRecordingType);
    case SendStart(m) =>
      assert Background.TypeOf(m) == Some(Background.StartRecordingType);
  }

  /** The popup's processing run writes only its transcript and summary keys, so it
      never alters the coordinator's recording record, the meeting history or the
      settings. */
  lemma PipelineLeavesCoordinatorKeys(store: Store, blob: Option<Capture.Blob>, svc: Transcription.Services)
    ensures var after := Transcription.ProcessAudio(store, blob, svc).store;
      && Read(after, RecordingState.StateKey) == Read(store, RecordingState.StateKey)
      && Read(after, History.MeetingsKey) == Read(store, History.MeetingsKey)
      && Read(after, Settings.SettingsKey) == Read(store, Settings.SettingsKey)
  {
    assert RecordingState.StateKey !in Transcription.PipelineKeys;
    assert History.MeetingsKey !in Transcription.PipelineKeys;
    assert Settings.SettingsKey !in Transcription.PipelineKeys;
  }
}

=== FILE: envelope.dfy ===
/** The coordinator's reply protocol: every request it serves ends in one storage
    transition and one `{ success, message | data | error }` envelope. */
module Envelope {
  import opened Js

  /** One storage transition together with the envelope sent back to the caller. */
  datatype Transition = Transition(store: Store, response: Json)

  function Succeeded(message: string): Json
  {
    JObj(map["success" := JBool(true), "message" := JStr(message)])
  }

  function Failed(error: string): Json
  {
    JObj(map["success" := JBool(false), "error" := JStr(error)])
  }

  /** A response envelope: an object whose `success` is a boolean, and which carries a
      string `error` whenever `success` is false. */
  predicate IsEnvelope(r: Json)
  {
    && r.JObj?
    && "success" in r.fields && r.fields["success"].JBool?
    && (!r.fields["success"].b ==> "error" in r.fields && r.fields["error"].JStr?)
  }
}

=== FILE: history.dfy ===
/** The meeting history the coordinator keeps under `meetings` (background.js
    `saveMeetingData`, `getMeetingHistory`, `clearOldData`): newest first, at most 50
    entries, pruned of entries older than 30 days. */
module History {
  import opened Wrappers
  import opened Text
  import opened Js
  import opened Envelope

  const MeetingsKey := "meetings"
  const MaxMeetings := 50
  /** 30 days in milliseconds. */
  const RetentionMs := 30 * 24 * 60 * 60 * 1000

  /** The id `saveMeetingData` generates from the save time. */
  function MeetingId(now: int): string
  {
    "meeting_" + IntToString(now)
  }

  /** Save times that differ give ids that differ. */
  lemma MeetingIdsAreDistinct(t1: int, t2: int)
    requires t1 != t2
    ensures MeetingId(t1) != MeetingId(t2)
  {
    if MeetingId(t1) == MeetingId(t2) {
      var p := "meeting_";
      assert MeetingId(t1)[|p|..] == IntToString(t1);
      assert MeetingId(t2)[|p|..] == IntToString(t2);
      IntToStringInjective(t1, t2);
    }
  }

  /** The properties `...data` spreads into an object literal. Only a plain object
      contributes properties in this model. */
  function SpreadFields(data: Option<Json>): map<string, Json>
  {
    if data.Some? && data.value.JObj? then data.value.fields else map[]
  }

  /** `{ id, timestamp, date, ...data }`: the spread comes last, so `data` overrides
      the generated fields. */
  function NewRecord(now: int, nowIso: string, data: Option<Json>): (r: map<string, Json>)
    ensures r.Keys == {"id", "timestamp", "date"} + SpreadFields(data).Keys
    ensures forall k :: k in SpreadFields(data) ==> r[k] == SpreadFields(data)[k]
    ensures "id" !in SpreadFields(data) ==> r["id"] == JStr(MeetingId(now))
    ensures "timestamp" !in SpreadFields(data) ==> r["timestamp"] == JNum(now)
    ensures "date" !in SpreadFields(data) ==> r["date"] == JStr(nowIso)
  {
    map["id" := JStr(MeetingId(now)), "timestamp" := JNum(now), "date" := JStr(nowIso)] + SpreadFields(data)
  }

  function Min(a: int, b: int): int
  {
    if a < b then a else b
  }

  /** `meetings.unshift(record); if (meetings.length > 50) meetings.splice(50)`. */
  function PushCapped(record: Json, meetings: seq<Json>): (r: seq<Json>)
    ensures |r| == Min(|meetings| + 1, MaxMeetings)
    ensures r[0] == record
    ensures r[1..] == meetings[..|r| - 1]
  {
    var all := [record] + meetings;
    if |all| > MaxMeetings then all[..MaxMeetings] else all
  }

  /** `result.meetings || []`, followed by a use that needs an array: a truthy
      non-array value makes the array method throw. */
  function StoredMeetings(store: Store, use: string): (r: Result<seq<Json>>)
    ensures r.Success? <==> !Defined(Read(store, MeetingsKey)) || store[MeetingsKey].JArr?
    ensures r.Success? && Defined(Read(store, MeetingsKey)) ==> r.value == store[MeetingsKey].items
    ensures r.Success? && !Defined(Read(store, MeetingsKey)) ==> r.value == []
  {
    var v := Read(store, MeetingsKey);
    if !Defined(v) then Success([])
    else if v.value.JArr? then Success(v.value.items)
    else Failure("meetings." + use + " is not a function")
  }

  /** `saveMeetingData(data)`: prepends the new record, caps the list at 50 and answers
      with the generated id (even when `data` overrides the record's own `id`). */
  function SaveMeetingData(store: Store, now: int, nowIso: string, data: Option<Json>, faults: Faults)
    : (r: Transition)
    ensures UnchangedExcept(store, r.store, {MeetingsKey})
    ensures faults.readError.None? && faults.writeError.None? && StoredMeetings(store, "unshift").Success? ==>
      var prior := StoredMeetings(store, "unshift").value;
      && r.store == store[MeetingsKey := JArr(PushCapped(JObj(NewRecord(now, nowIso, data)), prior))]
      && r.response == JObj(map["success" := JBool(true), "meetingId" := JStr(MeetingId(now))])
    ensures faults.readError.Some? || faults.writeError.Some? || StoredMeetings(store, "unshift").Failure? ==>
      r.store == store && Member(r.response, "success") == Some(JBool(false))
    ensures faults.readError.Some? ==> r.response == Failed(faults.readError.value)
    ensures faults.readError.None? && StoredMeetings(store, "unshift").Failure? ==>
      r.response == Failed(StoredMeetings(store, "unshift").error)
    ensures faults.readError.None? && StoredMeetings(store, "unshift").Success? && faults.writeError.Some? ==>
      r.response == Failed(faults.writeError.value)
  {
    var record := JObj(NewRecord(now, nowIso, data));
    if faults.readError.Some? then Transition(store, Failed(faults.readError.value))
    else match StoredMeetings(store, "unshift")
      case Failure(e) => Transition(store, Failed(e))
      case Success(prior) =>
        if faults.writeError.Some? then Transition(store, Failed(faults.writeError.value))
        else
          Transition(
            store[MeetingsKey := JArr(PushCapped(record, prior))],
            JObj(map["success" := JBool(true), "meetingId" := JStr(MeetingId(now))]))
  }

  /** A truthy stored history that is not an array (a string, say) makes every save fail
      with `unshift`'s TypeError, and the stored value is never repaired. */
  lemma NonArrayHistoryRefusesSaves(store: Store, now: int, nowIso: string, data: Option<Json>, writeError: Option<string>)
    requires MeetingsKey in store && Truthy(store[MeetingsKey]) && !store[MeetingsKey].JArr?
    ensures var r := SaveMeetingData(store, now, nowIso, data, Faults(None, writeError));
      && r.store == store
      && r.response == Failed("meetings.unshift is not a function")
  {
    assert StoredMeetings(store, "unshift") == Failure("meetings.unshift is not a function");
  }

  /** `getMeetingHistory()`: the stored list (or any other truthy stored value), `[]` when
      nothing truthy is stored or the read fails. */
  function GetMeetingHistory(store: Store, readError: Option<string>): (r: Json)
    ensures Truthy(r)
    ensures readError.None? && Defined(Read(store, MeetingsKey)) ==> r == store[MeetingsKey]
    ensures readError.Some? || !Defined(Read(store, MeetingsKey)) ==> r == JArr([])
  {
    if readError.None? && Defined(Read(store, MeetingsKey)) then store[MeetingsKey] else JArr([])
  }

  /** `meeting.timestamp > cutoff` under JavaScript's relational comparison; a missing or
      non-numeric timestamp compares false. */
  predicate IsNewer(meeting: Json, cutoff: int)
  {
    match Member(meeting, "timestamp")
    case Some(JNum(t)) => t > cutoff
    case Some(JBool(b)) => (if b then 1 else 0) > cutoff
    case Some(JNull) => 0 > cutoff
    case _ => false
  }

  /** `meetings.filter(m => m.timestamp > cutoff)` over a list without `null` entries. */
  function KeepNewer(meetings: seq<Json>, cutoff: int): (r: seq<Json>)
    ensures |r| <= |meetings|
    ensures forall x :: x in r <==> x in meetings && IsNewer(x, cutoff)
    decreases |meetings|
  {
    if |meetings| == 0 then []
    else if IsNewer(meetings[0], cutoff) then [meetings[0]] + KeepNewer(meetings[1..], cutoff)
    else KeepNewer(meetings[1..], cutoff)
  }

  /** The filter keeps relative order: filtering a concatenation filters each part. */
  lemma {:induction false} KeepNewerDistributes(a: seq<Json>, b: seq<Json>, cutoff: int)
    ensures KeepNewer(a + b, cutoff) == KeepNewer(a, cutoff) + KeepNewer(b, cutoff)
    decreases |a|
  {
    if |a| > 0 {
      assert (a + b)[1..] == a[1..] + b;
      KeepNewerDistributes(a[1..], b, cutoff);
    } else {
      assert a + b == b;
    }
  }

  /** Filtering twice with the same cutoff is filtering once. */
  lemma {:induction false} KeepNewerIdempotent(meetings: seq<Json>, cutoff: int)
    ensures KeepNewer(KeepNewer(meetings, cutoff), cutoff) == KeepNewer(meetings, cutoff)
    decreases |meetings|
  {
    if |meetings| > 0 {
      KeepNewerIdempotent(meetings[1..], cutoff);
      if IsNewer(meetings[0], cutoff) {
        var rest := KeepNewer(meetings[1..], cutoff);
        assert ([meetings[0]] + rest)[1..] == rest;
      }
    }
  }

  /** The stored history can be filtered without throwing. */
  predicate Sweepable(store: Store)
  {
    StoredMeetings(store, "filter").Success? && JNull !in StoredMeetings(store, "filter").value
  }

  /** `clearOldData()`: keeps exactly the entries newer than 30 days before `now`, in their
      order. An absent list becomes `[]`; a failed read or write, a non-array value, or a
      `null` entry (whose `timestamp` read throws) leaves storage unchanged. */
  function ClearOldData(store: Store, now: int, faults: Faults): (r: Store)
    ensures UnchangedExcept(store, r, {MeetingsKey})
    ensures faults == NoFaults && Sweepable(store) ==>
      r == store[MeetingsKey := JArr(KeepNewer(StoredMeetings(store, "filter").value, now - RetentionMs))]
    ensures faults != NoFaults || !Sweepable(store) ==> r == store
  {
    if faults.readError.Some? then store
    else match StoredMeetings(store, "filter")
      case Failure(_) => store
      case Success(prior) =>
        if JNull in prior || faults.writeError.Some? then store
        else store[MeetingsKey := JArr(KeepNewer(prior, now - RetentionMs))]
  }

  /** An entry stamped exactly 30 days before the sweep is removed; one a millisecond
      younger is kept. */
  lemma ThirtyDayBoundary(now: int)
    ensures !IsNewer(JObj(map["timestamp" := JNum(now - RetentionMs)]), now - RetentionMs)
    ensures IsNewer(JObj(map["timestamp" := JNum(now - RetentionMs + 1)]), now - RetentionMs)
  {
  }

  /** Running the sweep twice at the same time changes nothing the first run did not. */
  lemma ClearOldDataIdempotent(store: Store, now: int)
    ensures ClearOldData(ClearOldData(store, now, NoFaults), now, NoFaults) == ClearOldData(store, now, NoFaults)
  {
    var once := ClearOldData(store, now, NoFaults);
    var cut := now - RetentionMs;
    if Sweepable(store) {
      var kept := KeepNewer(StoredMeetings(store, "filter").value, cut);
      assert JNull !in kept;
      assert StoredMeetings(once, "filter") == Success(kept);
      KeepNewerIdempotent(StoredMeetings(store, "filter").value, cut);
    }
  }

  /** Saving records one after another onto an empty history. */
  function SaveAll(meetings: seq<Json>, records: seq<Json>): seq<Json>
    decreases |records|
  {
    if |records| == 0 then meetings else SaveAll(PushCapped(records[0], meetings), records[1..])
  }

  function Reverse(s: seq<Json>): (r: seq<Json>)
    ensures |r| == |s|
    ensures forall i :: 0 <= i < |s| ==> r[i] == s[|s| - 1 - i]
    decreases |s|
  {
    if |s| == 0 then [] else Reverse(s[1..]) + [s[0]]
  }

  /** However many records are saved, the history holds the 50 most recent, newest
      first: older entries are evicted, never reordered. */
  lemma {:induction false} HistoryKeepsNewestFifty(meetings: seq<Json>, records: seq<Json>)
    requires |meetings| <= MaxMeetings
    ensures var h := SaveAll(meetings, records);
      h == (Reverse(records) + meetings)[..Min(|records| + |meetings|, MaxMeetings)]
    decreases |records|
  {
    if |records| > 0 {
      var m1 := PushCapped(records[0], meetings);
      HistoryKeepsNewestFifty(m1, records[1..]);
      var front := Reverse(records[1..]);
      var back := [records[0]] + meetings;
      assert m1 == back[..Min(|back|, MaxMeetings)];
      assert Reverse(records) + meetings == front + back;
      TruncatedTail(front, back, Min(|back|, MaxMeetings), Min(|records| + |meetings|, MaxMeetings));
    }
  }

  /** Cutting the tail of a sequence does not change a prefix that ends before the cut. */
  lemma TruncatedTail(front: seq<Json>, back: seq<Json>, k: nat, m: nat)
    requires k <= |back| && m <= |front| + k
    ensures (front + back[..k])[..m] == (front + back)[..m]
  {
    forall i | 0 <= i < m
      ensures (front + back[..k])[i] == (front + back)[i]
    {
      if i >= |front| {
        assert back[..k][i - |front|] == back[i - |front|];
      }
    }
  }
}

=== FILE: js.dfy ===
/** The slice of JavaScript value semantics the extension depends on: JSON-shaped
    values, truthiness, property reads that throw on `null`/`undefined`, template
    rendering, and the key/value storage area those values live in. */
module Js {
  import opened Wrappers
  import opened Text

  /** A JSON-serialisable value. Numbers are integers in this model. `undefined`
      is never a value here; an absent property is `None`. */
  datatype Json =
    | JNull
    | JBool(b: bool)
    | JNum(n: int)
    | JStr(s: string)
    | JArr(items: seq<Json>)
    | JObj(fields: map<string, Json>)

  /** JavaScript truthiness (`!!v`). */
  predicate Truthy(v: Json)
  {
    match v
    case JNull => false
    case JBool(b) => b
    case JNum(n) => n != 0
    case JStr(s) => s != ""
    case JArr(_) => true
    case JObj(_) => true
  }

  /** Truthiness of a possibly-undefined value. */
  predicate Defined(v: Option<Json>)
  {
    v.Some? && Truthy(v.value)
  }

  /** An own property of a non-nullish value; primitives and arrays have none of the
      names this program reads. */
  function Member(v: Json, key: string): Option<Json>
  {
    if v.JObj? && key in v.fields then Some(v.fields[key]) else None
  }

  /** V8's message for reading a property of `null` or `undefined`. */
  function ReadError(holder: string, key: string): string
  {
    "Cannot read properties of " + holder + " (reading '" + key + "')"
  }

  /** `v.key`: throws on `null` and `undefined`, otherwise reads the own property. */
  function GetProp(v: Option<Json>, key: string): (r: Result<Option<Json>>)
    ensures r.Failure? <==> v == None || v == Some(JNull)
    ensures r.Success? ==> r.value == Member(v.value, key)
  {
    match v
    case None => Failure(ReadError("undefined", key))
    case Some(JNull) => Failure(ReadError("null", key))
    case Some(x) => Success(Member(x, key))
  }

  /** `v[i]`: array element, string character, or the object property named by `i`. */
  function GetIndex(v: Option<Json>, i: nat): (r: Result<Option<Json>>)
    ensures r.Failure? <==> v == None || v == Some(JNull)
  {
    match v
    case None => Failure(ReadError("undefined", NatToString(i)))
    case Some(JNull) => Failure(ReadError("null", NatToString(i)))
    case Some(JArr(xs)) => Success(if i < |xs| then Some(xs[i]) else None)
    case Some(JStr(s)) => Success(if i < |s| then Some(JStr([s[i]])) else None)
    case Some(x) => Success(Member(x, NatToString(i)))
  }

  /** `String(v)`, as a template literal renders an interpolated value. */
  function Render(v: Json): string
    decreases v, 1
  {
    match v
    case JNull => "null"
    case JBool(b) => if b then "true" else "false"
    case JNum(n) => IntToString(n)
    case JStr(s) => s
    case JArr(xs) => JoinFrom(xs, 0)
    case JObj(_) => "[object Object]"
  }

  /** `xs.slice(i).join(',')`: nullish elements render as the empty string. */
  function JoinFrom(xs: seq<Json>, i: nat): string
    requires i <= |xs|
    decreases JArr(xs), 0, |xs| - i
  {
    if i == |xs| then ""
    else
      var item := if xs[i] == JNull then "" else Render(xs[i]);
      if i + 1 == |xs| then item else item + "," + JoinFrom(xs, i + 1)
  }

  /** `chrome.storage.local`: one JSON value per key. */
  type Store = map<string, Json>

  /** `(await chrome.storage.local.get(key))[key]`. */
  function Read(store: Store, key: string): Option<Json>
  {
    if key in store then Some(store[key]) else None
  }

  /** The outcome of the (at most one) storage read and (at most one) storage write an
      operation performs: `None` means the call resolves, `Some(m)` that it rejects with
      an error whose message is `m`. */
  datatype Faults = Faults(readError: Option<string>, writeError: Option<string>)

  const NoFaults := Faults(None, None)

  /** Every key other than those in `touched` holds the same value before and after. */
  ghost predicate UnchangedExcept(before: Store, after: Store, touched: set<string>)
  {
    && (forall k :: k !in touched ==> (k in before <==> k in after))
    && (forall k :: k !in touched && k in before ==> k in after && after[k] == before[k])
  }

  /** Two writes that each touch only their own keys together touch only those keys. */
  lemma UnchangedExceptWidens(a: Store, b: Store, c: Store, first: set<string>, second: set<string>, all: set<string>)
    requires first + second <= all
    requires UnchangedExcept(a, b, first) && UnchangedExcept(b, c, second)
    ensures UnchangedExcept(a, c, all)
  {
  }
}

=== FILE: platforms.dfy ===
/** Classification of a page URL into a meeting platform, as the background
    coordinator does it (background.js `detectMeetingPlatform` and `handleTabUpdate`). */
module Platforms {
  import opened Wrappers
  import opened Text

  datatype Platform = GoogleMeet | Zoom | MicrosoftTeams | Webex | Whereby | Jitsi | Unknown

  /** The platform identifier string the extension reports. */
  function Id(p: Platform): string
  {
    match p
    case GoogleMeet => "google-meet"
    case Zoom => "zoom"
    case MicrosoftTeams => "microsoft-teams"
    case Webex => "webex"
    case Whereby => "whereby"
    case Jitsi => "jitsi"
    case Unknown => "unknown"
  }

  /** The ordered substring table of `detectMeetingPlatform`; the first hit wins. */
  const Signatures: seq<(string, Platform)> := [
    ("meet.google.com", GoogleMeet),
    ("zoom.us", Zoom),
    ("teams.microsoft.com", MicrosoftTeams),
    ("webex.com", Webex),
    ("whereby.com", Whereby),
    ("jitsi", Jitsi)
  ]

  predicate NamesPlatforms(table: seq<(string, Platform)>)
  {
    forall j :: 0 <= j < |table| ==> table[j].1 != Unknown
  }

  /** The platform of the first entry at or after `k` whose substring occurs in `url`. */
  function FirstMatchFrom(url: string, table: seq<(string, Platform)>, k: nat): (r: Platform)
    requires k <= |table| && NamesPlatforms(table)
    ensures r == Unknown <==> forall j :: k <= j < |table| ==> !Contains(url, table[j].0)
    ensures r != Unknown ==>
      exists j :: k <= j < |table| && table[j].1 == r && Contains(url, table[j].0)
        && forall i :: k <= i < j ==> !Contains(url, table[i].0)
    decreases |table| - k
  {
    if k == |table| then Unknown
    else if Contains(url, table[k].0) then table[k].1
    else FirstMatchFrom(url, table, k + 1)
  }

  /** A browser tab as the message sender describes it; `url` may be missing. */
  datatype Tab = Tab(url: Option<string>)

  /** `detectMeetingPlatform(tab)`: total; a missing tab or a missing or empty URL is
      `unknown`, otherwise the lower-cased URL is matched against `Signatures`. */
  function DetectMeetingPlatform(tab: Option<Tab>): (r: Platform)
    ensures tab.None? || tab.value.url.None? || tab.value.url.value == "" ==> r == Unknown
    ensures tab.Some? && tab.value.url.Some? ==>
      var lower := ToLower(tab.value.url.value);
      && (r == Unknown <==> forall j :: 0 <= j < |Signatures| ==> !Contains(lower, Signatures[j].0))
      && (r != Unknown ==>
            exists j :: 0 <= j < |Signatures| && Signatures[j].1 == r && Contains(lower, Signatures[j].0)
              && forall i :: 0 <= i < j ==> !Contains(lower, Signatures[i].0))
  {
    if tab.None? || tab.value.url.None? || tab.value.url.value == "" then Unknown
    else FirstMatchFrom(ToLower(tab.value.url.value), Signatures, 0)
  }

  /** The case-sensitive host list `handleTabUpdate` uses to decide a tab is a meeting. */
  const MeetingHosts: seq<string> :=
    ["meet.google.com", "zoom.us", "teams.microsoft.com", "webex.com", "whereby.com", "jitsi.org"]

  /** `meetingPlatforms.some(p => url.includes(p))`. */
  predicate IsMeetingPlatformUrl(url: string)
  {
    exists k :: 0 <= k < |MeetingHosts| && Contains(url, MeetingHosts[k])
  }

  /** What `handleTabUpdate` does with the tab badge and content script. */
  datatype TabAction = NoAction | InjectAndMark | ClearBadge

  /** The `tabs.onUpdated` listener: a completed load of a tab with a URL is either a
      meeting page (inject the content script, set the badge) or not (clear the badge). */
  function OnTabUpdated(status: string, tab: Tab): (r: TabAction)
    ensures r != NoAction <==> status == "complete" && tab.url.Some? && tab.url.value != ""
    ensures r == InjectAndMark <==>
      status == "complete" && tab.url.Some? && tab.url.value != "" && IsMeetingPlatformUrl(tab.url.value)
  {
    if status == "complete" && tab.url.Some? && tab.url.value != "" then
      if IsMeetingPlatformUrl(tab.url.value) then InjectAndMark else ClearBadge
    else NoAction
  }

  /** Every tab `handleTabUpdate` treats as a meeting is classified as a known platform. */
  lemma {:induction false} MeetingTabsAreClassified(url: string)
    requires IsMeetingPlatformUrl(url)
    ensures DetectMeetingPlatform(Some(Tab(Some(url)))) != Unknown
  {
    var k :| 0 <= k < |MeetingHosts| && Contains(url, MeetingHosts[k]);
    assert url != "" by {
      assert |MeetingHosts[k]| > 0;
    }
    var lower := ToLower(url);
    var j := if k == 5 then 5 else k;
    if k == 5 {
      assert OccursAt(MeetingHosts[5], "jitsi", 0);
      ContainsTransitive(url, MeetingHosts[5], "jitsi");
    }
    assert Signatures[j].0 == (if k == 5 then "jitsi" else MeetingHosts[k]);
    assert IsLowerCase(Signatures[j].0);
    ContainsSurvivesLowering(url, Signatures[j].0);
  }

  /** The converse fails: the background classifier lower-cases the URL, the tab-update
      list does not. */
  lemma UpperCaseHostIsClassifiedButNotMarked()
    ensures DetectMeetingPlatform(Some(Tab(Some("ZOOM.US")))) == Zoom
    ensures OnTabUpdated("complete", Tab(Some("ZOOM.US"))) == ClearBadge
  {
    var url := "ZOOM.US";
    var lower := ToLower(url);
    assert lower == "zoom.us";
    assert OccursAt(lower, "zoom.us", 0);
    assert !Contains(lower, "meet.google.com");
    forall k | 0 <= k < |MeetingHosts|
      ensures !Contains(url, MeetingHosts[k])
    {
      if k == 1 {
        assert url[0..7] != "zoom.us" by { assert url[0] != 'z'; }
      }
    }
  }
}

=== FILE: recording_state.dfy ===
/** The coordinator's recording-state record (background.js `getRecordingState`,
    `startRecording`, `stopRecording`). The record is one storage value that every
    transition overwrites whole. */
module RecordingState {
  import opened Wrappers
  import opened Js
  import opened Envelope

  const StateKey := "recordingState"

  /** `{ isRecording: false }`, reported when nothing usable is stored. */
  const IdleState := JObj(map["isRecording" := JBool(false)])

  /** Whether a recording-state value says a recording is active (`state.isRecording`). */
  predicate IsActive(state: Json)
  {
    Defined(Member(state, "isRecording"))
  }

  /** `getRecordingState()`: the stored record if it is truthy; the idle record when it is
      absent, falsy, or the read fails. */
  function GetRecordingState(store: Store, readError: Option<string>): (r: Json)
    ensures Truthy(r)
    ensures readError.Some? || StateKey !in store || !Truthy(store[StateKey]) ==> r == IdleState
    ensures readError.None? && StateKey in store && Truthy(store[StateKey]) ==> r == store[StateKey]
  {
    if readError.Some? then IdleState
    else if StateKey in store && Truthy(store[StateKey]) then store[StateKey]
    else IdleState
  }

  /** The state as a fault-free read reports it. */
  predicate IsRecording(store: Store)
  {
    IsActive(GetRecordingState(store, None))
  }

  /** The record `startRecording` writes. */
  function ActiveState(now: int, options: Json): Json
  {
    JObj(map["isRecording" := JBool(true), "startTime" := JNum(now), "options" := options])
  }

  /** The record `stopRecording` writes; it keeps neither `startTime` nor `options`. */
  function StoppedState(now: int): Json
  {
    JObj(map["isRecording" := JBool(false), "stopTime" := JNum(now)])
  }

  /** `startRecording(options = {})`: overwrites the record with an active one whatever was
      stored before (there is no check for a recording already in progress). Only a failed
      write makes it fail, and then nothing changes. */
  function StartRecording(store: Store, now: int, options: Option<Json>, writeError: Option<string>)
    : (r: Transition)
    ensures UnchangedExcept(store, r.store, {StateKey})
    ensures writeError.None? ==>
      && StateKey in r.store
      && IsRecording(r.store)
      && r.store[StateKey].JObj? && r.store[StateKey].fields.Keys == {"isRecording", "startTime", "options"}
      && Member(r.store[StateKey], "isRecording") == Some(JBool(true))
      && Member(r.store[StateKey], "startTime") == Some(JNum(now))
      && Member(r.store[StateKey], "options") == Some(if options.None? then JObj(map[]) else options.value)
      && r.response == Succeeded("Recording started")
    ensures writeError.Some? ==> r.store == store && r.response == Failed(writeError.value)
  {
    var opts := if options.None? then JObj(map[]) else options.value;
    match writeError
    case Some(e) => Transition(store, Failed(e))
    case None => Transition(store[StateKey := ActiveState(now, opts)], Succeeded("Recording started"))
  }

  /** `stopRecording()`: overwrites the record with an idle one carrying only the stop time,
      whether or not a recording was active. */
  function StopRecording(store: Store, now: int, writeError: Option<string>): (r: Transition)
    ensures UnchangedExcept(store, r.store, {StateKey})
    ensures writeError.None? ==>
      && StateKey in r.store
      && !IsRecording(r.store)
      && r.store[StateKey].JObj? && r.store[StateKey].fields.Keys == {"isRecording", "stopTime"}
      && Member(r.store[StateKey], "isRecording") == Some(JBool(false))
      && Member(r.store[StateKey], "stopTime") == Some(JNum(now))
      && r.response == Succeeded("Recording stopped")
    ensures writeError.Some? ==> r.store == store && r.response == Failed(writeError.value)
  {
    match writeError
    case Some(e) => Transition(store, Failed(e))
    case None => Transition(store[StateKey := StoppedState(now)], Succeeded("Recording stopped"))
  }

  /** A second start while recording succeeds and replaces the first start time. */
  lemma RestartOverwritesSession(store: Store, t1: int, t2: int, o1: Option<Json>, o2: Option<Json>)
    ensures var s1 := StartRecording(store, t1, o1, None).store;
      var r := StartRecording(s1, t2, o2, None);
      && IsRecording(s1)
      && r.response == Succeeded("Recording started")
      && Member(r.store[StateKey], "startTime") == Some(JNum(t2))
  {
  }

  /** Stopping twice succeeds both times, and the second stop leaves only its own time. */
  lemma StopIsIdempotent(store: Store, t1: int, t2: int)
    ensures var s1 := StopRecording(store, t1, None);
      var s2 := StopRecording(s1.store, t2, None);
      && s1.response == Succeeded("Recording stopped")
      && s2.response == Succeeded("Recording stopped")
      && !IsRecording(s1.store) && !IsRecording(s2.store)
      && s2.store == s1.store[StateKey := StoppedState(t2)]
  {
  }

  /** A stop forgets the session: the resulting store does not depend on what was
      recorded before it, only on the keys it does not touch. */
  lemma StopForgetsSession(a: Store, b: Store, now: int)
    requires forall k :: k != StateKey ==> (k in a <==> k in b) && (k in a ==> a[k] == b[k])
    ensures StopRecording(a, now, None).store == StopRecording(b, now, None).store
  {
    var sa := StopRecording(a, now, None).store;
    var sb := StopRecording(b, now, None).store;
    assert sa.Keys == sb.Keys;
  }

  /** A coordinator command in a fault-free run. */
  datatype Command = Start(at: int, options: Option<Json>) | Stop(at: int)

  function Apply(store: Store, c: Command): Store
  {
    match c
    case Start(t, o) => StartRecording(store, t, o, None).store
    case Stop(t) => StopRecording(store, t, None).store
  }

  function Run(store: Store, cs: seq<Command>): Store
    decreases |cs|
  {
    if |cs| == 0 then store else Run(Apply(store, cs[0]), cs[1..])
  }

  /** After any fault-free sequence of starts and stops, a recording is active exactly
      when the last command was a start (or, for no commands, when one was active). */
  lemma {:induction false} LastCommandDecides(store: Store, cs: seq<Command>)
    ensures IsRecording(Run(store, cs)) == if |cs| == 0 then IsRecording(store) else cs[|cs| - 1].Start?
    decreases |cs|
  {
    if |cs| > 0 {
      LastCommandDecides(Apply(store, cs[0]), cs[1..]);
      if |cs| > 1 {
        assert cs[1..][|cs[1..]| - 1] == cs[|cs| - 1];
      }
    }
  }
}

=== FILE: settings.dfy ===
/** Extension settings (background.js `initializeSettings`, popup.js `saveSettings`):
    defaults are written once, on installation, only when nothing is stored. */
module Settings {
  import opened Wrappers
  import opened Js

  const SettingsKey := "settings"

  /** The defaults written on first installation; 7200 seconds is two hours. */
  const DefaultSettings := JObj(map[
    "autoSummarize" := JBool(true),
    "language" := JStr("auto"),
    "maxRecordingDuration" := JNum(7200),
    "autoDetectMeetings" := JBool(true),
    "summaryFormat" := JStr("detailed")
  ])

  /** `initializeSettings()`: writes the defaults when the stored settings are missing or
      falsy; a present value is never replaced, and a failed read or write changes nothing. */
  function InitializeSettings(store: Store, faults: Faults): (r: Store)
    ensures UnchangedExcept(store, r, {SettingsKey})
    ensures Defined(Read(store, SettingsKey)) ==> r == store
    ensures faults.readError.Some? || faults.writeError.Some? ==> r == store
    ensures faults == NoFaults ==> SettingsKey in r && Truthy(r[SettingsKey])
    ensures faults == NoFaults && !Defined(Read(store, SettingsKey)) ==> r[SettingsKey] == DefaultSettings
  {
    if faults.readError.Some? || Defined(Read(store, SettingsKey)) || faults.writeError.Some? then store
    else store[SettingsKey := DefaultSettings]
  }

  /** Initialising again changes nothing. */
  lemma InitializeSettingsIdempotent(store: Store, faults: Faults)
    ensures InitializeSettings(InitializeSettings(store, NoFaults), faults) == InitializeSettings(store, NoFaults)
  {
  }

  /** popup.js `saveSettings()`: replaces the whole settings object with the two values the
      popup edits; a failed write changes nothing. */
  function SavePopupSettings(store: Store, autoSummarize: bool, language: string, writeError: Option<string>)
    : (r: Store)
    ensures UnchangedExcept(store, r, {SettingsKey})
    ensures writeError.None? ==> SettingsKey in r && r[SettingsKey].JObj? && r[SettingsKey].fields.Keys == {"autoSummarize", "language"}
    ensures writeError.None? ==>
      && Member(r[SettingsKey], "autoSummarize") == Some(JBool(autoSummarize))
      && Member(r[SettingsKey], "language") == Some(JStr(language))
    ensures writeError.Some? ==> r == store
  {
    if writeError.Some? then store
    else store[SettingsKey := JObj(map["autoSummarize" := JBool(autoSummarize), "language" := JStr(language)])]
  }

  /** The popup's two settings controls: the auto-summarize checkbox and the language
      selector's value. */
  datatype Controls = Controls(autoSummarize: bool, language: string)

  /** popup.js `loadSettings()`, for the settings: when the stored object is truthy the
      checkbox takes the truthiness of its `autoSummarize` and the selector the rendering
      of its `language` (`undefined` when absent); otherwise, or when the read rejects,
      the controls keep their values. */
  function LoadSettings(store: Store, controls: Controls, readError: Option<string>): (r: Controls)
    ensures readError.Some? || !Defined(Read(store, SettingsKey)) ==> r == controls
    ensures readError.None? && Defined(Read(store, SettingsKey)) ==>
      r.autoSummarize == Defined(Member(store[SettingsKey], "autoSummarize"))
  {
    if readError.Some? || !Defined(Read(store, SettingsKey)) then controls
    else
      var settings := store[SettingsKey];
      var language := Member(settings, "language");
      Controls(Defined(Member(settings, "autoSummarize")), if language.Some? then Render(language.value) else "undefined")
  }

  /** What the popup saves, it loads back into the same control values. */
  lemma SavedSettingsLoadBack(store: Store, controls: Controls, autoSummarize: bool, language: string)
    ensures LoadSettings(SavePopupSettings(store, autoSummarize, language, None), controls, None)
      == Controls(autoSummarize, language)
  {
  }

  /** Once the popup has saved its settings, a later initialisation does not restore the
      defaults it dropped (such as `maxRecordingDuration`). */
  lemma PopupSettingsSurviveInitialization(store: Store, autoSummarize: bool, language: string)
    ensures var saved := SavePopupSettings(store, autoSummarize, language, None);
      var r := InitializeSettings(saved, NoFaults);
      r == saved && Member(r[SettingsKey], "maxRecordingDuration") == None
  {
  }
}

=== FILE: text.dfy ===
/** String operations the extension relies on: `includes`, `toLowerCase`, `trim`,
    and the decimal rendering of integers used by template literals. */
module Text {

  /** `p` occurs in `s` starting at index `i`. */
  predicate OccursAt(s: string, p: string, i: int)
  {
    0 <= i && i + |p| <= |s| && s[i..i + |p|] == p
  }

  /** JavaScript `s.includes(p)`; the empty pattern occurs in every string. */
  predicate Contains(s: string, p: string)
  {
    exists i :: 0 <= i <= |s| - |p| && OccursAt(s, p, i)
  }

  /** A string occurs in any string built around it. */
  lemma ContainsInfix(a: string, t: string, b: string)
    ensures Contains(a + t + b, t)
  {
    assert OccursAt(a + t + b, t, |a|);
  }

  /** Every character of a contained pattern is a character of the string. */
  lemma ContainedCharsOccur(s: string, p: string, c: char)
    ensures Contains(s, p) && c in p ==> c in s
  {
    if Contains(s, p) && c in p {
      var i :| 0 <= i <= |s| - |p| && OccursAt(s, p, i);
      var k :| 0 <= k < |p| && p[k] == c;
      assert s[i..i + |p|][k] == c;
      assert s[i + k] == c;
    }
  }

  /** Containment is transitive: an occurrence of `p` carries every occurrence inside `p`. */
  lemma {:induction false} ContainsTransitive(s: string, p: string, q: string)
    requires Contains(s, p) && Contains(p, q)
    ensures Contains(s, q)
  {
    var i :| 0 <= i <= |s| - |p| && OccursAt(s, p, i);
    var j :| 0 <= j <= |p| - |q| && OccursAt(p, q, j);
    forall k | 0 <= k < |q|
      ensures s[i + j + k] == q[k]
    {
      assert s[i..i + |p|][j + k] == p[j + k];
      assert p[j..j + |q|][k] == q[k];
    }
    assert s[i + j..i + j + |q|] == q;
    assert OccursAt(s, q, i + j);
  }

  /** ASCII case mapping of one character. */
  function LowerChar(c: char): char
  {
    if 'A' <= c <= 'Z' then (c as int + 32) as char else c
  }

  /** `s.toLowerCase()` restricted to ASCII letters: same length, character by character. */
  function ToLower(s: string): string
  {
    seq(|s|, i requires 0 <= i < |s| => LowerChar(s[i]))
  }

  /** A pattern whose lower-cased form sits inside a string is found in the lower-cased string. */
  lemma ContainsLoweredInfix(a: string, t: string, b: string, p: string)
    requires ToLower(t) == p
    ensures Contains(ToLower(a + t + b), p)
  {
    var s := a + t + b;
    assert ToLower(s)[|a|..|a| + |p|] == p by {
      forall k | 0 <= k < |p|
        ensures ToLower(s)[|a|..|a| + |p|][k] == p[k]
      {
        assert s[|a| + k] == t[k];
      }
    }
    assert OccursAt(ToLower(s), p, |a|);
  }

  /** A lower-case letter absent from a string in both cases is absent from its lowered form. */
  lemma LoweredLacks(s: string, c: char)
    requires 'a' <= c <= 'z' && c !in s && (c as int - 32) as char !in s
    ensures c !in ToLower(s)
  {
  }

  /** A string without upper-case ASCII letters is left alone by `ToLower`. */
  predicate IsLowerCase(s: string)
  {
    forall i :: 0 <= i < |s| ==> !('A' <= s[i] <= 'Z')
  }

  /** Lower-casing preserves every occurrence of a lower-case pattern. */
  lemma {:induction false} ContainsSurvivesLowering(s: string, p: string)
    requires IsLowerCase(p) && Contains(s, p)
    ensures Contains(ToLower(s), p)
  {
    var i :| 0 <= i <= |s| - |p| && OccursAt(s, p, i);
    var t := ToLower(s);
    forall k | 0 <= k < |p|
      ensures t[i..i + |p|][k] == p[k]
    {
      assert s[i + k] == p[k];
    }
    assert t[i..i + |p|] == p;
    assert OccursAt(t, p, i);
  }

  /** The characters `String.prototype.trim` removes: ECMAScript WhiteSpace and LineTerminator. */
  predicate IsJsSpace(c: char)
  {
    var n := c as int;
    || n == 0x09 || n == 0x0A || n == 0x0B || n == 0x0C || n == 0x0D || n == 0x20
    || n == 0xA0 || n == 0x1680 || (0x2000 <= n <= 0x200A)
    || n == 0x2028 || n == 0x2029 || n == 0x202F || n == 0x205F || n == 0x3000 || n == 0xFEFF
  }

  /** `s.trim().length === 0`. */
  predicate IsBlank(s: string)
  {
    forall i :: 0 <= i < |s| ==> IsJsSpace(s[i])
  }

  function DigitChar(d: nat): (c: char)
    requires d < 10
    ensures '0' <= c <= '9'
  {
    ('0' as int + d) as char
  }

  function DigitValue(c: char): nat
    requires '0' <= c <= '9'
  {
    c as int - '0' as int
  }

  predicate IsDigits(s: string)
  {
    forall i :: 0 <= i < |s| ==> '0' <= s[i] <= '9'
  }

  /** Decimal rendering of a natural number, most significant digit first, no leading zero. */
  function NatToString(n: nat): (r: string)
    ensures |r| > 0 && IsDigits(r)
    ensures |r| > 1 ==> r[0] != '0'
    decreases n
  {
    if n < 10 then [DigitChar(n)] else NatToString(n / 10) + [DigitChar(n % 10)]
  }

  /** Reads a string of decimal digits back as a number. */
  function ParseNat(s: string): nat
    requires IsDigits(s)
    decreases |s|
  {
    if |s| == 0 then 0 else 10 * ParseNat(s[..|s| - 1]) + DigitValue(s[|s| - 1])
  }

  lemma {:induction false} ParseNatToString(n: nat)
    ensures ParseNat(NatToString(n)) == n
    decreases n
  {
    if n >= 10 {
      var s := NatToString(n / 10);
      var r := NatToString(n);
      assert r == s + [DigitChar(n % 10)];
      assert r[..|r| - 1] == s;
      ParseNatToString(n / 10);
    }
  }

  /** Template-literal rendering of an integer (`${n}`). */
  function IntToString(n: int): (r: string)
    ensures |r| > 0
  {
    if n < 0 then "-" + NatToString(-n) else NatToString(n)
  }

  /** Reads back what `IntToString` writes. */
  function ParseInt(s: string): int
    requires (|s| > 0 && s[0] == '-' && IsDigits(s[1..])) || IsDigits(s)
  {
    if |s| > 0 && s[0] == '-' then 0 - ParseNat(s[1..]) as int else ParseNat(s)
  }

  /** Decimal rendering round-trips, so distinct integers render differently. */
  lemma IntToStringRoundTrip(n: int)
    ensures var r := IntToString(n);
      ((|r| > 0 && r[0] == '-' && IsDigits(r[1..])) || IsDigits(r)) && ParseInt(r) == n
  {
    var r := IntToString(n);
    if n < 0 {
      assert r[1..] == NatToString(-n);
      ParseNatToString(-n);
    } else {
      ParseNatToString(n);
    }
  }

  lemma IntToStringInjective(a: int, b: int)
    requires IntToString(a) == IntToString(b)
    ensures a == b
  {
    IntToStringRoundTrip(a);
    IntToStringRoundTrip(b);
  }
}

=== FILE: transcription.dfy ===
/** The popup's processing pipeline (popup.js `processAudio`,
    `generateSummaryFromTranscript`, `generateSummary`): upload checks, the transcription
    call, the empty-transcript rule, error classification, the summary call, and what
    is persisted. The remote services are inputs: each call's outcome is given. */
module Transcription {
  import opened Wrappers
  import opened Text
  import opened Js
  import Capture

  const ApiKeyKey := "apiKey"
  const TranscriptKey := "lastTranscript"
  const TranscriptTimeKey := "lastTranscriptTime"
  const SummaryKey := "lastSummary"
  const SummaryTimeKey := "lastSummaryTime"

  /** The only storage keys the popup's pipeline writes. */
  const PipelineKeys: set<string> := {TranscriptKey, TranscriptTimeKey, SummaryKey, SummaryTimeKey}

  /** An HTTP response: status line and the body as `response.json()` settles
      (a parse failure carries the thrown message). */
  datatype Response = Response(status: int, statusText: string, body: Result<Json>)

  /** `response.ok`. */
  predicate IsOk(r: Response)
  {
    200 <= r.status <= 299
  }

  /** A settled `fetch`: a network-level rejection, or a response. */
  datatype Fetch = Rejected(reason: string) | Responded(response: Response)

  datatype FormField =
    | FileField(name: string, blob: Capture.Blob, filename: string)
    | TextField(name: string, value: string)

  /** The multipart transcription upload, with its bearer credential. */
  datatype Upload = Upload(authorization: string, form: seq<FormField>)

  /** The chat-completion request. */
  datatype ChatRequest = ChatRequest(authorization: string, model: string, prompt: string, maxTokens: nat)

  /** What the summary section shows. */
  datatype Display = Unchanged | TranscriptShown(transcript: string) | SummaryShown(summary: string, transcript: string)

  /** Everything outside the popup one processing run depends on: the language selector,
      the auto-summarize checkbox, the clock's ISO rendering, the storage calls that can
      reject, and the two remote calls. The key is read twice on the way to a summary:
      `keyReadError` is the first `getApiKey()` of `processAudio`, `summaryKeyReadError`
      the one `generateSummaryFromTranscript` makes. */
  datatype Services = Services(
    language: string,
    autoSummarize: bool,
    nowIso: string,
    keyReadError: Option<string>,
    transcription: Fetch,
    transcriptWriteError: Option<string>,
    summaryKeyReadError: Option<string>,
    chat: Fetch,
    summaryWriteError: Option<string>)

  /** The observable effect of one run: storage afterwards, the last status shown, the
      requests sent, and the summary section. */
  datatype Run = Run(store: Store, status: Capture.Status, upload: Option<Upload>, chat: Option<ChatRequest>, display: Display)

  const MissingKeyMessage := "Please enter your OpenAI API key"
  const NoAudioMessage := "No audio data recorded"
  const NoSpeechMessage := "No speech detected in the recording"
  const AuthText := "Invalid API key. Please check your OpenAI API key."
  const RateLimitText := "API rate limit exceeded. Please try again later."
  const QuotaText := "Insufficient OpenAI credits. Please add credits to your account."
  const QuotaMarker := "insufficient" + "_quota"

  /** The `catch` of `processAudio`: the first of `401`, `429`, `insufficient_quota` found
      in the message decides; otherwise the message is shown behind `Error: `. */
  function ClassifyProcessingError(message: string): (r: string)
    ensures Contains(message, "401") ==> r == AuthText
    ensures !Contains(message, "401") && Contains(message, "429") ==> r == RateLimitText
    ensures !Contains(message, "401") && !Contains(message, "429") && Contains(message, QuotaMarker) ==> r == QuotaText
    ensures !Contains(message, "401") && !Contains(message, "429") && !Contains(message, QuotaMarker) ==>
      r == "Error: " + message
  {
    if Contains(message, "401") then AuthText
    else if Contains(message, "429") then RateLimitText
    else if Contains(message, QuotaMarker) then QuotaText
    else "Error: " + message
  }

  /** A message with no `4` and no `_` matches none of the three markers, so it is shown
      as it is behind `Error: `. */
  lemma PlainMessagesPassThrough(message: string)
    requires '4' !in message && '_' !in message
    ensures ClassifyProcessingError(message) == "Error: " + message
  {
    ContainedCharsOccur(message, "401", '4');
    ContainedCharsOccur(message, "429", '4');
    assert '_' in QuotaMarker;
    ContainedCharsOccur(message, QuotaMarker, '_');
  }

  /** The multipart form: the file, the model, the response format, and the language hint
      only when a language other than `auto` is selected. */
  function Form(blob: Capture.Blob, language: string): (r: seq<FormField>)
    ensures |r| >= 3 && r[0] == FileField("file", blob, "recording.webm")
    ensures TextField("model", "whisper-1") in r && TextField("response_format", "json") in r
    ensures (exists f :: f in r && f.TextField? && f.name == "language") <==> language != "auto"
    ensures forall f :: f in r && f.TextField? && f.name == "language" ==> f.value == language
  {
    var base := [FileField("file", blob, "recording.webm"), TextField("model", "whisper-1"), TextField("response_format", "json")];
    if language != "auto" then
      var r := base + [TextField("language", language)];
      assert r[3] in r;
      r
    else base
  }

  /** The tail of a failed transcription's message: `errorData.error?.message || ''`,
      where an unparseable body counts as `{}` and a `null` body makes the read throw. */
  function ErrorDetail(body: Result<Json>): Result<string>
  {
    var errorData := if body.Failure? then JObj(map[]) else body.value;
    var err :- GetProp(Some(errorData), "error");
    var inner := if err.None? || err == Some(JNull) then None else Member(err.value, "message");
    Success(if Defined(inner) then Render(inner.value) else "")
  }

  /** The message thrown for a transcription response that is not ok. */
  function TranscriptionFailure(r: Response, detail: string): string
  {
    "Transcription failed: " + IntToString(r.status) + " " + r.statusText + ". " + detail
  }

  /** `transcriptionData.text`, accepted only when it is a string with a non-space
      character; a missing, falsy or blank text is "no speech", and a non-string has no
      `trim` to call. */
  function TranscriptText(data: Json): (r: Result<string>)
    ensures r.Success? <==> (exists s :: Member(data, "text") == Some(JStr(s)) && !IsBlank(s)) && data != JNull
    ensures r.Success? ==> Member(data, "text") == Some(JStr(r.value)) && !IsBlank(r.value)
    ensures data != JNull && (!Defined(Member(data, "text")) || exists s :: Member(data, "text") == Some(JStr(s)) && IsBlank(s))
      ==> r == Failure(NoSpeechMessage)
  {
    var text :- GetProp(Some(data), "text");
    if !Defined(text) then Failure(NoSpeechMessage)
    else match text.value
      case JStr(s) => if IsBlank(s) then Failure(NoSpeechMessage) else Success(s)
      case _ => Failure("transcript.trim is not a function")
  }

  /** The transcript a transcription call yields, or the message it throws. */
  function TranscriptFrom(f: Fetch): (r: Result<string>)
    ensures r.Success? ==>
      f.Responded? && IsOk(f.response) && f.response.body.Success? && TranscriptText(f.response.body.value) == r
    ensures f.Rejected? ==> r == Failure(f.reason)
    ensures f.Responded? && !IsOk(f.response) && ErrorDetail(f.response.body).Success? ==>
      r == Failure(TranscriptionFailure(f.response, ErrorDetail(f.response.body).value))
    ensures f.Responded? && !IsOk(f.response) && ErrorDetail(f.response.body).Failure? ==>
      r == Failure(ErrorDetail(f.response.body).error)
  {
    match f
    case Rejected(reason) => Failure(reason)
    case Responded(resp) =>
      if !IsOk(resp) then
        var detail :- ErrorDetail(resp.body);
        Failure(TranscriptionFailure(resp, detail))
      else
        var data :- resp.body;
        TranscriptText(data)
  }

  const PromptHead :=
    "Please provide a comprehensive summary of this meeting transcript. Include:\n\n"
    + "1. **Key Discussion Points**: Main topics discussed\n"
    + "2. **Decisions Made**: Any concrete decisions or agreements\n"
    + "3. **Action Items**: Tasks assigned with responsible parties (if mentioned)\n"
    + "4. **Important Dates/Deadlines**: Any mentioned dates or deadlines\n"
    + "5. **Follow-up Items**: Things that need further discussion\n\n"
    + "Transcript:\n"
  const PromptTail := "\n\nPlease format the summary in a clear, organized manner with bullet points where appropriate."

  /** The summary prompt: fixed text around the transcript, which is interpolated verbatim. */
  function Prompt(transcript: string): (r: string)
    ensures Contains(r, transcript)
    ensures |r| == |PromptHead| + |transcript| + |PromptTail|
    ensures r[|PromptHead|..|PromptHead| + |transcript|] == transcript
  {
    ContainsInfix(PromptHead, transcript, PromptTail);
    PromptHead + transcript + PromptTail
  }

  /** `data.choices[0].message.content`, which must be a string for `formatSummary` to
      run; every other shape throws. */
  function SummaryContent(data: Json): (r: Result<string>)
    ensures r.Success? ==> exists choices, first, message ::
      && Member(data, "choices") == Some(choices) && GetIndex(Some(choices), 0) == Success(Some(first))
      && Member(first, "message") == Some(message) && first != JNull
      && message != JNull && data != JNull && choices != JNull
      && Member(message, "content") == Some(JStr(r.value))
  {
    var choices :- GetProp(Some(data), "choices");
    var first :- GetIndex(choices, 0);
    var message :- GetProp(first, "message");
    var content :- GetProp(message, "content");
    match content
    case Some(JStr(s)) => Success(s)
    case None => Failure(ReadError("undefined", "replace"))
    case Some(JNull) => Failure(ReadError("null", "replace"))
    case Some(_) => Failure("summary.replace is not a function")
  }

  /** The summary a chat call yields, or the message it throws. A response that is not
      ok throws before its body is read. */
  function SummaryFrom(f: Fetch): (r: Result<string>)
    ensures r.Success? ==>
      f.Responded? && IsOk(f.response) && f.response.body.Success? && SummaryContent(f.response.body.value) == r
    ensures f.Responded? && !IsOk(f.response) ==> r == Failure("Summary generation failed: " + f.response.statusText)
  {
    match f
    case Rejected(reason) => Failure(reason)
    case Responded(resp) =>
      if !IsOk(resp) then Failure("Summary generation failed: " + resp.statusText)
      else
        var data :- resp.body;
        SummaryContent(data)
  }

  function Authorization(key: Json): string
  {
    "Bearer " + Render(key)
  }

  /** Every step of a summary run succeeds. */
  predicate Summarizes(store: Store, svc: Services)
  {
    svc.summaryKeyReadError.None? && Defined(Read(store, ApiKeyKey)) && svc.summaryWriteError.None?
    && SummaryFrom(svc.chat).Success?
  }

  /** `generateSummaryFromTranscript(transcript)`: the summary is the chat content and is
      saved under `lastSummary`; any failure is shown behind `Error: ` and saves nothing. */
  function SummarizeTranscript(store: Store, transcript: string, svc: Services): (r: Run)
    ensures r.upload.None?
    ensures UnchangedExcept(store, r.store, {SummaryKey, SummaryTimeKey})
    ensures r.store != store ==>
      && svc.summaryKeyReadError.None? && Defined(Read(store, ApiKeyKey)) && svc.summaryWriteError.None?
      && SummaryFrom(svc.chat).Success?
      && r.store == store[SummaryKey := JStr(SummaryFrom(svc.chat).value)][SummaryTimeKey := JStr(svc.nowIso)]
    ensures r.chat.Some? ==> r.chat.value.prompt == Prompt(transcript) && r.chat.value.model == "gpt-3.5-turbo"
    ensures Summarizes(store, svc) ==>
      && SummaryKey in r.store && r.store[SummaryKey] == JStr(SummaryFrom(svc.chat).value)
      && r.status == Capture.Status("Summary generated successfully!", Capture.Succeeded)
      && r.display == SummaryShown(SummaryFrom(svc.chat).value, transcript)
  {
    match svc.summaryKeyReadError
    case Some(e) => Run(store, Capture.Status("Error: " + e, Capture.Failed), None, None, Unchanged)
    case None =>
      var key := Read(store, ApiKeyKey);
      if !Defined(key) then Run(store, Capture.Status(MissingKeyMessage, Capture.Failed), None, None, Unchanged)
      else
        var request := ChatRequest(Authorization(key.value), "gpt-3.5-turbo", Prompt(transcript), 1000);
        match SummaryFrom(svc.chat)
        case Failure(e) => Run(store, Capture.Status("Error: " + e, Capture.Failed), None, Some(request), Unchanged)
        case Success(summary) =>
          var shown := SummaryShown(summary, transcript);
          match svc.summaryWriteError
          case Some(e) => Run(store, Capture.Status("Error: " + e, Capture.Failed), None, Some(request), shown)
          case None =>
            Run(store[SummaryKey := JStr(summary)][SummaryTimeKey := JStr(svc.nowIso)],
                Capture.Status("Summary generated successfully!", Capture.Succeeded), None, Some(request), shown)
  }

  /** The outcome of the checks before the upload: stop with a status, or upload. */
  datatype Gate = Halt(status: Capture.Status) | Proceed(upload: Upload)

  /** The checks at the top of `processAudio`, in order: the key read, the key itself,
      then the payload. */
  function UploadGate(store: Store, blob: Option<Capture.Blob>, svc: Services): (r: Gate)
    ensures r.Proceed? <==>
      svc.keyReadError.None? && Defined(Read(store, ApiKeyKey)) && blob.Some? && |blob.value.bytes| > 0
    ensures r.Proceed? ==> r.upload == Upload(Authorization(store[ApiKeyKey]), Form(blob.value, svc.language))
    ensures svc.keyReadError.None? && !Defined(Read(store, ApiKeyKey)) ==>
      r == Halt(Capture.Status(MissingKeyMessage, Capture.Failed))
    ensures svc.keyReadError.None? && Defined(Read(store, ApiKeyKey)) && (blob.None? || |blob.value.bytes| == 0) ==>
      r == Halt(Capture.Status(ClassifyProcessingError(NoAudioMessage), Capture.Failed))
  {
    match svc.keyReadError
    case Some(e) => Halt(Capture.Status(ClassifyProcessingError(e), Capture.Failed))
    case None =>
      var key := Read(store, ApiKeyKey);
      if !Defined(key) then Halt(Capture.Status(MissingKeyMessage, Capture.Failed))
      else if blob.None? || |blob.value.bytes| == 0 then
        Halt(Capture.Status(ClassifyProcessingError(NoAudioMessage), Capture.Failed))
      else Proceed(Upload(Authorization(key.value), Form(blob.value, svc.language)))
  }

  /** What follows a sent upload: a transcript that fails is classified and nothing is
      saved. */
  function AfterUpload(store: Store, upload: Upload, svc: Services): (r: Run)
    ensures r.upload == Some(upload)
    ensures UnchangedExcept(store, r.store, PipelineKeys)
    ensures r.chat.Some? ==> svc.autoSummarize && TranscriptFrom(svc.transcription).Success?
    ensures r.store != store ==>
      && TranscriptFrom(svc.transcription).Success? && svc.transcriptWriteError.None?
      && TranscriptKey in r.store && r.store[TranscriptKey] == JStr(TranscriptFrom(svc.transcription).value)
      && !IsBlank(TranscriptFrom(svc.transcription).value)
    ensures TranscriptFrom(svc.transcription).Failure? ==>
      r.store == store && r.chat.None?
      && r.status == Capture.Status(ClassifyProcessingError(TranscriptFrom(svc.transcription).error), Capture.Failed)
  {
    match TranscriptFrom(svc.transcription)
    case Failure(e) => Run(store, Capture.Status(ClassifyProcessingError(e), Capture.Failed), Some(upload), None, Unchanged)
    case Success(transcript) =>
      TranscriptTextIsNotBlank(svc.transcription);
      WithTranscript(store, upload, transcript, svc)
  }

  /** A transcript in hand: it is saved unless the write fails, and a saved transcript is
      summarised when auto-summarize is on, otherwise shown. */
  function WithTranscript(store: Store, upload: Upload, transcript: string, svc: Services): (r: Run)
    ensures r.upload == Some(upload)
    ensures UnchangedExcept(store, r.store, PipelineKeys)
    ensures r.chat.Some? ==> svc.autoSummarize
    ensures r.store != store ==>
      svc.transcriptWriteError.None? && TranscriptKey in r.store && r.store[TranscriptKey] == JStr(transcript)
    ensures svc.transcriptWriteError.None? ==> TranscriptKey in r.store && r.store[TranscriptKey] == JStr(transcript)
  {
    match svc.transcriptWriteError
    case Some(e) => Run(store, Capture.Status(ClassifyProcessingError(e), Capture.Failed), Some(upload), None, Unchanged)
    case None =>
      var saved := store[TranscriptKey := JStr(transcript)][TranscriptTimeKey := JStr(svc.nowIso)];
      if svc.autoSummarize then
        var s := SummarizeTranscript(saved, transcript, svc);
        UnchangedExceptWidens(store, saved, s.store, {TranscriptKey, TranscriptTimeKey}, {SummaryKey, SummaryTimeKey}, PipelineKeys);
        s.(upload := Some(upload))
      else
        Run(saved, Capture.Status("Transcription complete! Click \"Generate Summary\" for AI summary.", Capture.Succeeded),
            Some(upload), None, TranscriptShown(transcript))
  }

  lemma TranscriptTextIsNotBlank(f: Fetch)
    requires TranscriptFrom(f).Success?
    ensures !IsBlank(TranscriptFrom(f).value)
  {
  }

  /** `processAudio(audioBlob)`. Without an API key it stops before any upload; an absent
      or empty payload is an error and is not uploaded; a blank transcript is an error
      and is not saved; a saved transcript goes on to the summary when auto-summarize is
      on. The pipeline writes no storage key but its own four. */
  function ProcessAudio(store: Store, blob: Option<Capture.Blob>, svc: Services): (r: Run)
    ensures UnchangedExcept(store, r.store, PipelineKeys)
    ensures r.upload.Some? <==> UploadGate(store, blob, svc).Proceed?
    ensures r.upload.None? ==> r.store == store && r.chat.None? && r.status == UploadGate(store, blob, svc).status
    ensures r.upload.Some? ==> r == AfterUpload(store, r.upload.value, svc)
  {
    match UploadGate(store, blob, svc)
    case Halt(status) => Run(store, status, None, None, Unchanged)
    case Proceed(upload) => AfterUpload(store, upload, svc)
  }

  /** The "Generate Summary" button: summarises the saved transcript when one is stored;
      otherwise (or when the read rejects) nothing happens. */
  function GenerateSummary(store: Store, transcriptReadError: Option<string>, svc: Services): (r: Option<Run>)
    ensures r.Some? <==> transcriptReadError.None? && Defined(Read(store, TranscriptKey))
    ensures r.Some? ==> r.value == SummarizeTranscript(store, Render(store[TranscriptKey]), svc)
  {
    if transcriptReadError.None? && Defined(Read(store, TranscriptKey)) then
      Some(SummarizeTranscript(store, Render(store[TranscriptKey]), svc))
    else None
  }

  /** An ok transcription response whose body carries a non-blank `text` yields exactly
      that text. */
  lemma TranscriptIsTheResponseText(status: int, statusText: string, t: string)
    requires 200 <= status <= 299 && !IsBlank(t)
    ensures TranscriptFrom(Responded(Response(status, statusText, Success(JObj(map["text" := JStr(t)]))))) == Success(t)
  {
  }

  /** A transcription response that is ok but whose text is blank is "no speech": the
      error is shown and storage is untouched. */
  lemma BlankTranscriptIsNotSaved(store: Store, blob: Option<Capture.Blob>, svc: Services, s: string)
    requires UploadGate(store, blob, svc).Proceed?
    requires svc.transcription.Responded? && IsOk(svc.transcription.response)
    requires svc.transcription.response.body == Success(JObj(map["text" := JStr(s)])) && IsBlank(s)
    ensures ProcessAudio(store, blob, svc).store == store
    ensures ProcessAudio(store, blob, svc).chat.None?
    ensures ProcessAudio(store, blob, svc).status == Capture.Status("Error: " + NoSpeechMessage, Capture.Failed)
  {
    var body := JObj(map["text" := JStr(s)]);
    assert Member(body, "text") == Some(JStr(s));
    assert TranscriptText(body) == Failure(NoSpeechMessage);
    assert TranscriptFrom(svc.transcription) == Failure(NoSpeechMessage);
    var r := ProcessAudio(store, blob, svc);
    assert r == AfterUpload(store, r.upload.value, svc);
    NoSpeechIsShownAsItIs();
  }

  lemma NoSpeechIsShownAsItIs()
    ensures ClassifyProcessingError(NoSpeechMessage) == "Error: " + NoSpeechMessage
  {
    PlainMessagesPassThrough(NoSpeechMessage);
  }

  /** A 401 from the transcription endpoint is reported as an invalid key, whatever the
      status text says and whatever error body comes back, unless that body is `null`
      (see `NullBodyHidesUnauthorized`); nothing is saved. */
  lemma UnauthorizedIsReported(store: Store, blob: Option<Capture.Blob>, svc: Services)
    requires UploadGate(store, blob, svc).Proceed?
    requires svc.transcription.Responded? && svc.transcription.response.status == 401
    requires svc.transcription.response.body.Success? ==> svc.transcription.response.body.value != JNull
    ensures ProcessAudio(store, blob, svc).store == store
    ensures ProcessAudio(store, blob, svc).status == Capture.Status(AuthText, Capture.Failed)
  {
    var resp := svc.transcription.response;
    var detail := ErrorDetail(resp.body);
    assert detail.Success?;
    assert IntToString(401) == "401";
    var head := "Transcription failed: ";
    var tail := " " + resp.statusText + ". " + detail.value;
    assert TranscriptionFailure(resp, detail.value) == head + "401" + tail;
    ContainsInfix(head, "401", tail);
  }

  /** As written, a 401 whose error body parses to `null` is not reported as an invalid
      key: reading `errorData.error` throws first, and its TypeError is shown behind
      `Error: `. Nothing is saved. */
  lemma NullBodyHidesUnauthorized(store: Store, blob: Option<Capture.Blob>, svc: Services)
    requires UploadGate(store, blob, svc).Proceed?
    requires svc.transcription.Responded? && svc.transcription.response.status == 401
    requires svc.transcription.response.body == Success(JNull)
    ensures ProcessAudio(store, blob, svc).store == store
    ensures ProcessAudio(store, blob, svc).status == Capture.Status("Error: " + ReadError("null", "error"), Capture.Failed)
    ensures ProcessAudio(store, blob, svc).status.message != AuthText
  {
    var message := ReadError("null", "error");
    assert ErrorDetail(svc.transcription.response.body) == Failure(message);
    assert TranscriptFrom(svc.transcription) == Failure(message);
    NullReadIsShownAsItIs();
    var r := ProcessAudio(store, blob, svc);
    assert r == AfterUpload(store, r.upload.value, svc);
  }

  /** A transcription response that is not ok, with a readable error body, ends the run
      on the classified `Transcription failed: …` message; nothing is saved and no
      summary is requested. */
  lemma FailedTranscriptionIsClassified(store: Store, blob: Option<Capture.Blob>, svc: Services)
    requires UploadGate(store, blob, svc).Proceed?
    requires svc.transcription.Responded? && !IsOk(svc.transcription.response)
    requires ErrorDetail(svc.transcription.response.body).Success?
    ensures var r := ProcessAudio(store, blob, svc);
      var message := TranscriptionFailure(svc.transcription.response, ErrorDetail(svc.transcription.response.body).value);
      && r.store == store && r.chat.None?
      && r.status == Capture.Status(ClassifyProcessingError(message), Capture.Failed)
  {
    var r := ProcessAudio(store, blob, svc);
    assert r == AfterUpload(store, r.upload.value, svc);
  }

  /** A 429 from the transcription endpoint is reported as the rate limit, provided the
      rest of the message does not carry a `401`, which would be matched first. */
  lemma RateLimitIsReported(store: Store, blob: Option<Capture.Blob>, svc: Services)
    requires UploadGate(store, blob, svc).Proceed?
    requires svc.transcription.Responded? && svc.transcription.response.status == 429
    requires ErrorDetail(svc.transcription.response.body).Success?
    requires !Contains(TranscriptionFailure(svc.transcription.response, ErrorDetail(svc.transcription.response.body).value), "401")
    ensures ProcessAudio(store, blob, svc).store == store
    ensures ProcessAudio(store, blob, svc).status == Capture.Status(RateLimitText, Capture.Failed)
  {
    var resp := svc.transcription.response;
    var detail := ErrorDetail(resp.body).value;
    FailedTranscriptionIsClassified(store, blob, svc);
    RateLimitMessage(resp, detail);
  }

  /** A failure message for status 429 without a `401` in it classifies as the rate limit. */
  lemma RateLimitMessage(resp: Response, detail: string)
    requires resp.status == 429 && !Contains(TranscriptionFailure(resp, detail), "401")
    ensures ClassifyProcessingError(TranscriptionFailure(resp, detail)) == RateLimitText
  {
    assert IntToString(429) == "429";
    var head := "Transcription failed: ";
    var tail := " " + resp.statusText + ". " + detail;
    assert TranscriptionFailure(resp, detail) == head + "429" + tail;
    ContainsInfix(head, "429", tail);
  }

  /** An error body whose message names `insufficient_quota` is reported as missing
      credits, provided the message carries neither `401` nor `429`. */
  lemma QuotaIsReported(store: Store, blob: Option<Capture.Blob>, svc: Services)
    requires UploadGate(store, blob, svc).Proceed?
    requires svc.transcription.Responded? && !IsOk(svc.transcription.response)
    requires ErrorDetail(svc.transcription.response.body).Success?
    requires Contains(ErrorDetail(svc.transcription.response.body).value, QuotaMarker)
    requires var message := TranscriptionFailure(svc.transcription.response, ErrorDetail(svc.transcription.response.body).value);
      !Contains(message, "401") && !Contains(message, "429")
    ensures ProcessAudio(store, blob, svc).store == store
    ensures ProcessAudio(store, blob, svc).status == Capture.Status(QuotaText, Capture.Failed)
  {
    var resp := svc.transcription.response;
    var detail := ErrorDetail(resp.body).value;
    FailedTranscriptionIsClassified(store, blob, svc);
    var head := "Transcription failed: " + IntToString(resp.status) + " " + resp.statusText + ". ";
    assert TranscriptionFailure(resp, detail) == head + detail + "";
    ContainsInfix(head, detail, "");
    ContainsTransitive(TranscriptionFailure(resp, detail), detail, QuotaMarker);
  }

  lemma NullReadIsShownAsItIs()
    ensures ClassifyProcessingError(ReadError("null", "error")) == "Error: " + ReadError("null", "error")
    ensures "Error: " + ReadError("null", "error") != AuthText
  {
    var message := ReadError("null", "error");
    assert '4' !in message && '_' !in message;
    PlainMessagesPassThrough(message);
    assert |"Error: " + message| != |AuthText|;
  }

  /** The shape of a chat-completion reply: one choice whose message has `content`. */
  function ChatReply(content: string): Json
  {
    JObj(map["choices" := JArr([JObj(map["message" := JObj(map["content" := JStr(content)])])])])
  }

  /** An ok chat response yields exactly the content of its first choice. */
  lemma SummaryIsTheReplyContent(status: int, statusText: string, content: string)
    requires 200 <= status <= 299
    ensures SummaryFrom(Responded(Response(status, statusText, Success(ChatReply(content))))) == Success(content)
  {
    var choice := JObj(map["message" := JObj(map["content" := JStr(content)])]);
    assert Member(ChatReply(content), "choices") == Some(JArr([choice]));
    assert GetIndex(Some(JArr([choice])), 0) == Success(Some(choice));
  }

  /** Processing with every step succeeding: the transcript is the response text and is
      saved, the summary prompt embeds it, and the summary is the chat reply's content,
      saved and shown beside it. */
  lemma TranscriptReachesSummary(store: Store, blob: Option<Capture.Blob>, svc: Services, t: string, summary: string)
    requires svc.keyReadError.None? && ApiKeyKey in store && Truthy(store[ApiKeyKey])
    requires blob.Some? && |blob.value.bytes| > 0
    requires svc.transcription.Responded? && IsOk(svc.transcription.response)
    requires svc.transcription.response.body == Success(JObj(map["text" := JStr(t)])) && !IsBlank(t)
    requires svc.chat.Responded? && IsOk(svc.chat.response)
    requires svc.chat.response.body == Success(ChatReply(summary))
    requires svc.transcriptWriteError.None? && svc.autoSummarize
    requires svc.summaryKeyReadError.None? && svc.summaryWriteError.None?
    ensures var r := ProcessAudio(store, blob, svc);
      && TranscriptKey in r.store && r.store[TranscriptKey] == JStr(t)
      && SummaryKey in r.store && r.store[SummaryKey] == JStr(summary)
      && r.chat.Some? && Contains(r.chat.value.prompt, t)
      && r.display == SummaryShown(summary, t)
      && r.status == Capture.Status("Summary generated successfully!", Capture.Succeeded)
  {
    var resp := svc.transcription.response;
    TranscriptIsTheResponseText(resp.status, resp.statusText, t);
    SummaryIsTheReplyContent(svc.chat.response.status, svc.chat.response.statusText, summary);
    var saved := store[TranscriptKey := JStr(t)][TranscriptTimeKey := JStr(svc.nowIso)];
    assert Read(saved, ApiKeyKey) == Read(store, ApiKeyKey);
    assert Summarizes(saved, svc);
  }

  /** A summary that fails after the transcript was saved, because the second key read
      rejects or the chat call fails, does not lose the transcript and adds no summary. */
  lemma FailedSummaryKeepsTranscript(store: Store, blob: Option<Capture.Blob>, svc: Services, t: string)
    requires UploadGate(store, blob, svc).Proceed?
    requires TranscriptFrom(svc.transcription) == Success(t)
    requires svc.transcriptWriteError.None? && svc.autoSummarize
    requires svc.summaryKeyReadError.Some? || SummaryFrom(svc.chat).Failure?
    ensures var r := ProcessAudio(store, blob, svc);
      && TranscriptKey in r.store && r.store[TranscriptKey] == JStr(t)
      && r.status == Capture.Status(
           "Error: " + if svc.summaryKeyReadError.Some? then svc.summaryKeyReadError.value else SummaryFrom(svc.chat).error,
           Capture.Failed)
      && (SummaryKey in store <==> SummaryKey in r.store)
  {
    var saved := store[TranscriptKey := JStr(t)][TranscriptTimeKey := JStr(svc.nowIso)];
    assert Read(saved, ApiKeyKey) == Read(store, ApiKeyKey);
  }
}

=== FILE: wrappers.dfy ===
/** Failure-carrying datatypes shared by every module of the model. */
module Wrappers {

  /** A value that may be absent (JavaScript `undefined`). */
  datatype Option<+T> = None | Some(value: T)

  /** A computation that either yields a value or throws an error with a message.
      It is failure-compatible, so `:-` propagates a thrown error. */
  datatype Result<+T> = Success(value: T) | Failure(error: string) {

    predicate IsFailure()
    {
      Failure?
    }

    function PropagateFailure<U>(): Result<U>
      requires Failure?
    {
      Failure(error)
    }

    function Extract(): T
      requires Success?
    {
      value
    }
  }
}
